=== FILE: README.md ===
# versa-mail: a Dafny model of the template renderer and send orchestration

versa-mail sends templated HTML email through one of two adapters: an Azure
Communication Services mailer and a Nodemailer mailer. A factory picks the
adapter by name. Both adapters do the same two rendering steps:

- value substitution replaces every `#{key}` with the caller's value;
- CSS injection replaces every `/* @NAME */` comment with configured or default styles.

Each adapter has a single send and a bulk send. The bulk send renders one
copy per recipient and reports the recipients whose delivery failed.

This project models that core with pure functions over JavaScript-like
values. The email client, the SMTP transporter and the attachment download
are oracles passed in as parameters:

- `send(n, message)` is the outcome of the n-th transport call: a returned value or a throw;
- `fetch(url)` is the base64 content of a download, or the exception it raised.

The bulk sends are methods. Besides the report, they return the messages
actually handed to the transport. This shows where each adapter stops:

- Azure aborts the whole batch on the first throwing send;
- Nodemailer records a failed send and goes on, but an error while preparing a recipient's copy ends the call.

Modules, one per file:

- `Js` (js.dfy): JavaScript values, truthiness, `typeof`, exceptions, and ordered plain objects. It includes `{...a, ...b}` spread.
- `Text` (text.dfy): `split`/`join` and a global literal `replace`, with their lemmas.
- `Lists` (lists.dfy): ordered selection, the shape of `failedEmails`.
- `Render` (render.dfy): placeholders, CSS markers, the built-in templates and CSS defaults, and the two substitution paths. The built-ins are short stand-ins that carry the same markers as the originals.
- `Mail` (mail.dfy): the option records, the fixed messages and the bulk argument checks both adapters share.
- `AzureMailer` (azure.dfy), `NodeMailer` (nodemailer.dfy) and `MailerFactory` (factory.dfy): the adapters and the factory.

Where the written specification and the code disagree, the model follows the code:

- Per-recipient constants are `{...user, ...options.constants}`, so on a shared key the batch constant wins, not the recipient's value (`Js.Spread`).
- Azure's `sendBulk` returns null on bad arguments. It also returns null when a send throws or when an attachment fails. It does not isolate the recipient or report a status string.
- Nodemailer's bulk send puts a recipient on the failed list when `sendMail` throws. It also does so when `sendMail` resolves to null or undefined, because reading `info.response` then throws inside the same `try`.
- Azure prepares all copies with `Promise.all` before sending anything. This is modelled as an ordered map in which any failure aborts.

## Model

| member | source | states |
|---|---|---|
| Js.Spread | Mailers/NodeMailer.js:212 | `{...user, ...constants}` keeps the user's keys at their positions, each holding the batch constant's value when the batch has that key and the user's otherwise; after them come the batch constants' new keys, in the batch's order; reading any key gives the batch constant's value when there is one, else the user's |
| Js.Without | Mailers/NodeMailer.js:212 | the entries a spread appends are exactly the second object's entries whose key the first object lacks, kept in order as a filter of the second object; a key of the first object reads as absent from them |
| Text.ReplaceAll | Mailers/NodeMailer.js:216 | definition of the global literal replacement, scanning left to right and resuming after each replaced match; its behaviour is stated by Text.ReplaceAllAbsent and Text.ReplaceAllAt |
| Text.Split | Mailers/AzureMailer.js:68 | there is at least one piece; the first piece is a prefix of the content, followed by the separator whenever there are more pieces |
| Text.Join | Mailers/AzureMailer.js:68 | definition of `join`; stated together with Split by Text.SplitJoinIsReplaceAll and Text.SplitJoinRoundTrip |
| Text.SplitJoinIsReplaceAll | Mailers/AzureMailer.js:67-69 | splitting on a pattern and joining with a value replaces every non-overlapping occurrence, scanning left to right |
| Text.SplitJoinRoundTrip | Mailers/AzureMailer.js:68 | joining the pieces of a split with the same separator gives back the original content |
| Text.SplitPieces | Mailers/AzureMailer.js:68 | no piece of a split contains the separator, and each separator consumed was the leftmost one after the previous piece |
| Text.ReplaceAllAbsent | Mailers/NodeMailer.js:214-216 | content in which the pattern does not occur is returned unchanged |
| Text.ReplaceAllAt | Mailers/NodeMailer.js:216 | a match with no earlier match to its left is replaced in place, and the rest of the content is processed after it |
| Lists.SelectCount | Mailers/NodeMailer.js:209-256 | the failed list has exactly one entry per failed recipient, so never more entries than recipients, and it is empty exactly when nothing failed |
| Lists.SelectMembers | Mailers/AzureMailer.js:270-275 | an address is on the failed list if and only if it belongs to a recipient whose send failed |
| Render.PlaceholderUnique | Mailers/AzureMailer.js:68 | the placeholders of two different word keys never occur inside one another |
| Render.MarkerUnique | Mailers/AzureMailer.js:75-78 | the CSS markers of two different word names never occur inside one another |
| Render.MarkerHasNoPlaceholder | Mailers/NodeMailer.js:100-110 | no value placeholder occurs inside a CSS marker |
| Render.DefaultCss | DefaultCSS/default.js:2-47 | the six default style names, each with a short stand-in for its declarations; any other name has no default |
| Render.DefaultTemplate | DefaultTemplates/defaults.js:2-300 | the four built-in template names, each with a short stand-in carrying the original's CSS markers and value placeholders; any other name has no template |
| Render.SubstituteBySplitJoin | Mailers/AzureMailer.js:67-69 | definition of the single-send substitution: each key, in enumeration order, replaced by split/join in the previous result; stated by Render.SubstitutionPathsAgree and the lemmas below |
| Render.SubstituteByRegex | Mailers/NodeMailer.js:214-217 | definition of the bulk substitution with each placeholder matched literally; stated by Render.SubstitutionPathsAgree and Render.AsWrittenAgreesWithoutDigitKeys |
| Render.SpreadRegexSafe | Mailers/NodeMailer.js:212-216 | merging user fields and batch constants that are both free of all-digit keys and `$` patterns gives merged constants free of them too |
| Render.SubstitutionPathsAgree | Mailers/NodeMailer.js:214-217 | the split/join substitution of single sends and the global-replace substitution of bulk sends render the same content |
| Render.SubstituteWithoutPlaceholders | Mailers/AzureMailer.js:67-69 | content that contains none of the constants' placeholders is left unchanged |
| Render.UnmatchedPlaceholderVerbatim | Mailers/AzureMailer.js:67-69 | a placeholder whose key is not among the constants passes through verbatim |
| Render.MarkerSurvivesValues | Mailers/AzureMailer.js:67-69 | value substitution never alters a CSS marker |
| Render.PlaceholderReplaced | Mailers/AzureMailer.js:68 | with constants holding only that key, a placeholder in the content is replaced in place by its value, and the surrounding text is kept |
| Render.SubstituteAppend | Mailers/AzureMailer.js:67-69 | substituting two sets of constants one after the other is the same as substituting their concatenation, since each key works on the result of the keys before it |
| Render.ConfiguredPlaceholderFilled | Mailers/AzureMailer.js:67-69 | among any other constants, a placeholder is replaced in place by its value, provided the keys before it find no placeholder of theirs in the content and the keys after it find none in the result |
| Render.KeyRegexMatch | Mailers/NodeMailer.js:215 | definition of the text `new RegExp("#{" + key + "}", "g")` matches: the placeholder for a key that is not all digits, and a run of that many `#` for an all-digit key |
| Render.Interleave | Mailers/NodeMailer.js:216 | replacing the empty match everywhere puts one copy of the value before every character and one after the last, so the length grows by the value's length once per gap |
| Render.InterleaveBlock | Mailers/NodeMailer.js:216 | in the replacement of the empty match, the i-th block of length `|value| + 1` is the value followed by the i-th character of the content |
| Render.InterleaveEnd | Mailers/NodeMailer.js:216 | the replacement of the empty match ends with one more copy of the value after the last block |
| Render.ReplaceKeyAsWritten | Mailers/NodeMailer.js:215-216 | definition of one bulk replacement step as the regular expression behaves, including the empty match of a key of zeros |
| Render.SubstituteAsWritten | Mailers/NodeMailer.js:214-217 | definition of the bulk substitution as written: one such step per key, in enumeration order |
| Render.AsWrittenAgreesWithoutDigitKeys | Mailers/NodeMailer.js:214-217 | when no key is all digits, the bulk substitution as written equals the literal one |
| Render.ZeroKeyInterleaves | Mailers/NodeMailer.js:215-216 | for the key "0" with value "x", the regular expression turns "#{0}" into "x#x{x0x}x" |
| Render.DigitKeyMismatch | Mailers/NodeMailer.js:215-216 | for the key "1", the regular expression turns "#{1}" into "x{1}" where the literal replacement gives "x" |
| Render.InjectCssWithoutMarkers | Mailers/NodeMailer.js:104-110 | content without any configured marker is left unchanged by CSS injection |
| Render.CssFill | Mailers/NodeMailer.js:104-109 | the text that replaces a marker is never empty: a truthy override, else the name's default, else "undefined" |
| Render.InjectCss | Mailers/AzureMailer.js:72-83 | definition of CSS injection: the markers of each configured name, in enumeration order, replaced by that name's fill; stated by Render.InjectCssWithoutMarkers, Render.ForeignMarkerUntouched and Render.MarkerReplaced |
| Render.ForeignMarkerUntouched | Mailers/AzureMailer.js:72-83 | a marker whose name is not in the CSS configuration is left untouched |
| Render.MarkerReplaced | Mailers/AzureMailer.js:79-82 | with a configuration of that one name, a marker becomes the truthy override; failing that, the default for its name; failing that, the text "undefined" |
| Render.InjectAppend | Mailers/AzureMailer.js:72-83 | injecting two configurations one after the other is the same as injecting their concatenation, since each name works on the result of the names before it |
| Render.ConfiguredMarkerFilled | Mailers/AzureMailer.js:72-83 | in a configuration with other names before and after it, a marker is replaced in place by its name's fill, provided the earlier names find no marker of theirs in the content and the later names find none in the result |
| Render.ValuesThenCss | Mailers/NodeMailer.js:100-110 | substituting values first and injecting CSS after turns a placeholder whose value is a configured marker into that marker's fill |
| Render.CssThenValues | Mailers/NodeMailer.js:185-217 | injecting CSS first and substituting values after leaves the marker a placeholder's value brings in as it is |
| Mail.ValidateBulk | Mailers/AzureMailer.js:169-181 | a bulk request passes if and only if the subject is a non-empty string and the users form a non-empty array; otherwise the subject error takes priority over the users error |
| Mail.TemplateText | Mailers/AzureMailer.js:66 | a missing template fails with the TypeError for reading `toString` of undefined |
| Mail.ConstantsOf | Mailers/AzureMailer.js:67 | missing constants fail with the TypeError for converting undefined to an object |
| AzureMailer.New | Mailers/AzureMailer.js:20-36 | the mailer is built if and only if both arguments are non-empty strings and the email client accepts the connection string; the connection string is checked first, then the sender, each with its own message, and the client's own exception passes through |
| AzureMailer.InlineAll | Mailers/AzureMailer.js:90-106 | inlining succeeds if and only if every URL is a non-empty string whose download succeeds; each result keeps a truthy name or gets "attachment", keeps a truthy content type or gets "application/octet-stream", and carries the downloaded content |
| AzureMailer.InlineArg | Mailers/AzureMailer.js:86-106 | falsy attachments give null, a truthy non-array throws the given error, and an array is inlined |
| AzureMailer.MergeAttachments | Mailers/AzureMailer.js:260-264 | a recipient's attachments are null exactly when there are neither general nor own attachments; otherwise they are the general ones followed by the recipient's own |
| AzureMailer.RenderEmail | Mailers/AzureMailer.js:62-84 | rendering fails exactly when the template or the constants are missing, and a missing template fails on `toString`; a custom template only has its values substituted, while a built-in one has its values substituted and then its CSS injected |
| AzureMailer.ComposeEmail | Mailers/AzureMailer.js:60-125 | the message is built exactly when rendering and attachment handling both succeed; it carries the sender, subject, recipient, cc and bcc from the options, the rendered html, and the inlined attachments, which are null exactly when none were given |
| AzureMailer.SendEmail | Mailers/AzureMailer.js:127-139 | any failure while building the message, or a throwing client, gives null; otherwise the client's response is returned as it is, and the result is truthy exactly when the response is |
| AzureMailer.BulkBase | Mailers/AzureMailer.js:183-202 | the shared bulk content exists exactly when the template resolves; it is the custom template as given, or the built-in template with its CSS already injected, before any value is substituted |
| AzureMailer.PrepareUser | Mailers/AzureMailer.js:228-265 | a recipient's copy comes from the mailer's sender, is addressed to the user's email and name, carries the batch subject and no cc or bcc, and its html substitutes the merged constants into the shared content; its attachments are the general ones merged with the user's inlined ones; it fails exactly when the user's attachments fail |
| AzureMailer.PrepareAll | Mailers/AzureMailer.js:228-268 | all copies are prepared, in user order, exactly when every recipient's copy can be prepared |
| AzureMailer.PlanBulk | Mailers/AzureMailer.js:167-268 | an invalid request throws its validation error; preparation succeeds if and only if the request is valid, the template resolves, the general attachments inline and every recipient's copy can be prepared; then there is one copy per user, in order, each the copy prepared for that user |
| AzureMailer.SendAll | Mailers/AzureMailer.js:270-287 | the loop reports a failed list if and only if no send throws; the list then holds, in order, the addresses whose response was falsy, at most one per message; every send before the last attempted one returned, and a throw stops the loop at that message |
| AzureMailer.Unanswered | Mailers/AzureMailer.js:335-340 | a copy is reported as failed exactly when the client returned a falsy response for it |
| AzureMailer.SendBulk | Mailers/AzureMailer.js:167-295 | null is returned, and nothing sent, when preparation fails; when a send throws, null is returned after the earlier sends all returned; otherwise every prepared copy has been sent in order, and the status is "Emails queued for sending" with the users' emails whose response was falsy, in input order, and at most one per user |
| AzureMailer.BulkCopyMatchesSingleSend | Mailers/AzureMailer.js:204-265 | with a custom template, a recipient's bulk copy carries the html a single send renders with the merged constants `{...user, ...options.constants}` |
| NodeMailer.New | Mailers/NodeMailer.js:25-73 | the mailer is built if and only if service, username, password and sender are non-empty strings and any truthy transporter is an object with a `sendMail` function; the checks run in that order, each with its own message; a falsy transporter falls back to the credentials |
| NodeMailer.ToNodeAttachments | Mailers/NodeMailer.js:123-128 | every attachment keeps its position and its URL as the path; its file name is its truthy name, or "attachment" |
| NodeMailer.RenderEmail | Mailers/NodeMailer.js:94-110 | rendering fails exactly when the template or the constants are missing, with the TypeError each of those raises; otherwise values are substituted first and CSS is injected after, whether the template is custom or built-in |
| NodeMailer.ComposeEmail | Mailers/NodeMailer.js:112-129 | rendering errors propagate, and a truthy non-array `attachments` is rejected; otherwise the message carries the sender, recipient, reply-to, subject, text and rendered html, and the attachments mapped to file name and path, undefined exactly when none were given |
| NodeMailer.SendEmail | Mailers/NodeMailer.js:131-138 | the call rejects exactly when building the message throws; otherwise it resolves to the success object if and only if the transporter returned a non-nullish value, and to undefined otherwise |
| NodeMailer.Delivered | Mailers/NodeMailer.js:131-138 | a send counts as done when the transporter returned a value whose `response` can be read; a throw or a null or undefined result does not count |
| NodeMailer.Setup | Mailers/NodeMailer.js:167-207 | validation errors come first; an undefined template throws on `replace` only when CSS is configured; a resolved template becomes the shared content with its CSS already injected; a truthy non-array `attachments` is then rejected with "Invalid 'attachments'. It should be an array."; the general attachments are the mapped list, or empty |
| NodeMailer.RenderCopy | Mailers/NodeMailer.js:211-217 | a recipient's html substitutes `{...user, ...constants}` into the shared content; with no content it stays undefined when there is nothing to substitute, and throws on `replace` otherwise |
| NodeMailer.RenderCopyAsWritten | Mailers/NodeMailer.js:211-217 | with user fields and batch constants free of all-digit keys and `$` patterns, the literal substitution of a copy equals the source's per-key regular-expression substitution |
| NodeMailer.PrepareCopy | Mailers/NodeMailer.js:211-235 | a recipient's message comes from the mailer's sender and goes to the user's email with the batch subject; a rendering error passes through unchanged; its attachments are the general list followed by the user's, and undefined exactly when both are empty; a truthy non-array `user.attachments` throws |
| NodeMailer.UndeliveredSnoc | Mailers/NodeMailer.js:237-243 | one more send adds its recipient to the failed list exactly when the send did not count as done |
| NodeMailer.SendInOrder | Mailers/NodeMailer.js:211-256 | recipients are sent in order; copies are sent until the first one that cannot be prepared, whose error becomes the status; if all are sent, the status is "Emails queued for sending" with the emails of the undelivered recipients, in order, never more than there are recipients |
| NodeMailer.SendBulk | Mailers/NodeMailer.js:165-264 | a setup error gives only the status "Sending Error: " plus the message, and nothing is sent; otherwise a failed send does not stop the others, the failed list holds the undelivered recipients in order and is never longer than the user list, and an error preparing a copy gives a "Sending Error" status after the earlier sends |
| NodeMailer.CssOrderDiffers | Mailers/NodeMailer.js:94-110 | for any word CSS name with a non-empty override and any word key that is not all digits and whose value is that name's marker, a single send fills the marker in, because it injects CSS after values, while a bulk send delivers the marker verbatim, because it injects CSS first |
| NodeMailer.OneRecipientFailsLikeSendEmail | Mailers/NodeMailer.js:131-138 | a recipient is on a bulk send's failed list for a message exactly when `sendEmail` with that message resolves to undefined |
| MailerFactory.CreateMailer | index.js:23-56 | "azure" builds an Azure mailer from the connection string and sender, "nodemailer" builds a Nodemailer mailer from the five fields, and any other type throws the invalid-type error; constructor errors, including the email client's, pass through unchanged |
| MailerFactory.BuiltInTemplatesRenderAlike | Mailers/AzureMailer.js:71-84 | with a built-in template, both adapters render a single send identically |
| MailerFactory.CustomTemplatesRenderApart | Mailers/NodeMailer.js:104-110 | with a custom template, the Azure adapter leaves a configured marker in place while the Nodemailer adapter fills it in |

## Left out

- The email client, the SMTP transporter and `nodemailer.createTransport` are not modelled. The client and the transporter are the `send` oracles, and whether the `EmailClient` constructor accepts a connection string is the `openClient` oracle.
- The download and base64 encoding of attachments are the `fetch` oracle.
- Console logging is not modelled.
- Azure prepares recipients' copies and attachments concurrently with `Promise.all`. The model prepares them in order. When several attachments fail, the model reports the first in list order. This cannot be observed, because Azure turns every error into null.
- CSS names and value keys are restricted to word characters `[A-Za-z0-9_]` by preconditions (`IsWordKey` inside `CssSafe` and `RegexSafe`). This excludes regular-expression metacharacters, but also names and keys such as `first-name`, `reply to` or ones with non-ASCII letters, which the source's expressions match literally. Also excluded are the replacement patterns `$$`, `$&`, `` $` `` and `$'` in CSS overrides or bulk values. The preconditions `CssSafe` and `RegexSafe` sit on the entry points that use a regular expression.
- NodeMailer.RenderCopy: uses the literal replacement of each placeholder. The source's regular expression differs for all-digit keys (see Findings). `NodeMailer.SendBulk` therefore requires `RegexSafe`, which excludes all-digit keys, and `NodeMailer.RenderCopyAsWritten` proves the two agree under it.
- Non-string constant values are not modelled. This includes the user's own `attachments` property, which `{...user}` also offers as a key for substitution. In the source, the split/join path (every single send, and Azure's bulk send) passes the value to `join` as its separator, and `join` falls back to "," for undefined. The regular-expression path of a Nodemailer bulk send inserts the value's text, so undefined becomes "undefined".
- Strings are sequences of Unicode code points. JavaScript's global replacement of an empty match (Render.Interleave, for a key of zeros) steps through UTF-16 code units. For a character outside the Basic Multilingual Plane it inserts the value between the two halves, and the model does not. The split/join and CSS paths are unaffected, because their patterns are ASCII.
- Property enumeration order is taken as given. JavaScript lists array-index keys first.
- Inherited property names such as `toString` are not modelled, neither as template names nor as CSS names. For a CSS name without a truthy override the source reads `defaultCSS[name]` through the prototype: `toString` inserts "[object Undefined]" and `constructor` leaves the marker as it is, where the model inserts "undefined".
- Render.CssFill: a truthy CSS override that is not a string, such as a number, is not modelled. `CssConfig` holds strings or nothing, and the source would insert the override's text conversion, or for a function the result of calling it.
- A null CSS configuration, non-object options, users or attachments, and a custom template that is not a string are not modelled.
- NodeMailer.RenderCopy: a `user.attachments` property that is present but falsy is treated as absent when deciding whether there is anything to substitute.
- Numbers are integers or NaN. NaN is falsy, so a NaN transporter falls back to the credentials transport. Fractions are not modelled: no guard in the core depends on them.
- The built-in templates and CSS defaults are short stand-ins that keep the originals' markers and placeholders.
- `createMailer` called without an options object is not modelled. It throws a destructuring TypeError.

## Findings

| source | as written | input that shows it | evidently intended | confidence | as-written member | corrected member |
|---|---|---|---|---|---|---|
| Mailers/NodeMailer.js:215 | the bulk path builds `new RegExp("#{" + key + "}", "g")`, and for an all-digit key `{n}` is a repetition count, so the expression matches n `#` characters; a key of zeros matches the empty string | key "1" with value "x" on content "#{1}" gives "x{1}"; key "0" with value "x" gives "x#x{x0x}x" (Render.ZeroKeyInterleaves) | replace the placeholder `#{1}` literally, as the split/join path does, giving "x" | not executed | Render.DigitKeyMismatch | Render.SubstitutionPathsAgree |

=== FILE: azure.dfy ===
/** The Azure Communication Services mailer: constructor guards, a single
    send, and a bulk send that renders every recipient's copy first and then
    hands the copies to the email client one after another. */
module AzureMailer {
  import opened Js
  import opened Render
  import opened Mail
  import opened Lists

  const ConnectionStringMessage := "Invalid or missing 'connectionString'. Please provide a valid connection string."
  const AttachmentUrlMessage := "Invalid attachment. 'url' is required and should be a string."
  const DefaultContentType := "application/octet-stream"

  /** A constructed mailer; the email client it opens on the connection
      string is the `send` oracle of the operations below. */
  datatype Mailer = Mailer(senderAddress: string, css: CssConfig)

  /** `new EmailClient(connectionString)`: None when the client accepts the
      connection string, otherwise the exception its constructor throws. */
  type OpenClient = string -> Option<Exception>

  /** `new AzureMailer(connectionString, senderAddress, cssConfigurations)` */
  function New(connectionString: Value, senderAddress: Value, css: CssConfig, openClient: OpenClient): (r: Result<Mailer>)
    ensures r.Ok? <==>
              && IsNonEmptyString(connectionString)
              && IsNonEmptyString(senderAddress)
              && openClient(connectionString.s).None?
    ensures !IsNonEmptyString(connectionString) ==> r == Throw(Error(ConnectionStringMessage))
    ensures IsNonEmptyString(connectionString) && !IsNonEmptyString(senderAddress) ==>
              r == Throw(Error(SenderAddressMessage))
    ensures (IsNonEmptyString(connectionString) && IsNonEmptyString(senderAddress) &&
             openClient(connectionString.s).Some?) ==> r == Throw(openClient(connectionString.s).value)
    ensures r.Ok? ==> r.value.senderAddress == senderAddress.s && r.value.css == css
  {
    if !IsNonEmptyString(connectionString) then Throw(Error(ConnectionStringMessage))
    else if !IsNonEmptyString(senderAddress) then Throw(Error(SenderAddressMessage))
    else if openClient(connectionString.s).Some? then Throw(openClient(connectionString.s).value)
    else Ok(Mailer(senderAddress.s, css))
  }

  // ---------------------------------------------------------------------
  // Attachments
  // ---------------------------------------------------------------------

  /** `_convertAttachment(url)`: the downloaded content in base64, or the
      exception the download threw. */
  type Fetch = string -> Result<string>

  /** An attachment as the email client receives it. */
  datatype InlineAttachment = InlineAttachment(name: Value, contentType: Value, contentInBase64: string)

  /** An attachment whose URL passes the check and whose download succeeds. */
  predicate Fetchable(a: Attachment, fetch: Fetch) {
    IsNonEmptyString(a.url) && fetch(a.url.s).Ok?
  }

  /** `Promise.all(items.map(...))`: every attachment inlined in order, with
      the default name and content type filling in falsy ones. */
  function InlineAll(items: seq<Attachment>, fetch: Fetch): (r: Result<seq<InlineAttachment>>)
    ensures r.Ok? <==> forall i :: 0 <= i < |items| ==> Fetchable(items[i], fetch)
    ensures r.Ok? ==> |r.value| == |items|
    ensures r.Ok? ==> forall i :: 0 <= i < |items| ==>
                        && Truthy(r.value[i].name)
                        && (Truthy(items[i].name) ==> r.value[i].name == items[i].name)
                        && (!Truthy(items[i].name) ==> r.value[i].name == Str(DefaultAttachmentName))
                        && (Truthy(items[i].contentType) ==> r.value[i].contentType == items[i].contentType)
                        && (!Truthy(items[i].contentType) ==> r.value[i].contentType == Str(DefaultContentType))
                        && r.value[i].contentInBase64 == fetch(items[i].url.s).value
    decreases |items|
  {
    if items == [] then Ok([])
    else
      var a := items[0];
      if !IsNonEmptyString(a.url) then Throw(Error(AttachmentUrlMessage))
      else
        var data :- fetch(a.url.s);
        var rest :- InlineAll(items[1..], fetch);
        var first := InlineAttachment(Or(a.name, Str(DefaultAttachmentName)),
                                      Or(a.contentType, Str(DefaultContentType)), data);
        assert forall i :: 1 <= i < |items| ==> items[i] == items[1..][i - 1];
        Ok([first] + rest)
  }

  /** An `attachments` value after inlining: None for a falsy one, and
      `notArray` thrown for a truthy value that is not an array. */
  function InlineArg(arg: AttachmentsArg, fetch: Fetch, notArray: Exception): (r: Result<Option<seq<InlineAttachment>>>)
    ensures arg.NoAttachments? ==> r == Ok(None)
    ensures arg.NotAnArray? ==> r == Throw(notArray)
    ensures arg.Attachments? ==> (r.Ok? <==> InlineAll(arg.items, fetch).Ok?)
    ensures arg.Attachments? && r.Ok? ==> r.value == Some(InlineAll(arg.items, fetch).value)
  {
    match arg
    case NoAttachments => Ok(None)
    case NotAnArray => Throw(notArray)
    case Attachments(items) =>
      var inlined :- InlineAll(items, fetch);
      Ok(Some(inlined))
  }

  function OrEmpty<T>(o: Option<seq<T>>): seq<T> {
    match o
    case Some(xs) => xs
    case None => []
  }

  /** A recipient's attachments: the general ones followed by the user's
      own; null only when there are neither. */
  function MergeAttachments<T>(general: Option<seq<T>>, own: Option<seq<T>>): (r: Option<seq<T>>)
    ensures r.None? <==> general.None? && own.None?
    ensures r.Some? ==> r.value == OrEmpty(general) + OrEmpty(own)
  {
    match own
    case None => general
    case Some(u) =>
      match general
      case Some(g) => Some(g + u)
      case None => Some(u)
  }

  // ---------------------------------------------------------------------
  // A single email
  // ---------------------------------------------------------------------

  /** The message handed to `emailClient.beginSend`. */
  datatype AzureMessage = AzureMessage(
    senderAddress: string,
    subject: Value,
    html: string,
    address: Value,
    displayName: Value,
    cc: Value,
    bcc: Value,
    attachments: Option<seq<InlineAttachment>>)

  /** The email client: the response `pollUntilDone` resolves to for the
      n-th message sent, or a throw. */
  type Send = (nat, AzureMessage) -> SendOutcome

  /** The html body of `sendEmail`: values substituted, then CSS injected
      when the template is a built-in one. */
  function RenderEmail(m: Mailer, o: EmailOptions): (r: Result<string>)
    ensures r.Ok? <==> ResolveTemplate(o.withDefaultTemplate, o.templateName, o.template).Some? && o.constants.Some?
    ensures ResolveTemplate(o.withDefaultTemplate, o.templateName, o.template).None? ==> r == Throw(CannotRead("toString"))
    ensures r.Ok? && !o.withDefaultTemplate ==> r.value == SubstituteBySplitJoin(o.template.value, o.constants.value)
    ensures r.Ok? && o.withDefaultTemplate ==>
              r.value == InjectCss(SubstituteBySplitJoin(DefaultTemplate(o.templateName).value, o.constants.value), m.css)
  {
    var template :- TemplateText(ResolveTemplate(o.withDefaultTemplate, o.templateName, o.template));
    var constants :- ConstantsOf(o.constants);
    var content := SubstituteBySplitJoin(template, constants);
    Ok(if o.withDefaultTemplate then InjectCss(content, m.css) else content)
  }

  /** The message `sendEmail` builds, or the exception that stops it. */
  function ComposeEmail(m: Mailer, o: EmailOptions, fetch: Fetch): (r: Result<AzureMessage>)
    ensures r.Ok? <==> RenderEmail(m, o).Ok? && InlineArg(o.attachments, fetch, Error(AttachmentsMessage)).Ok?
    ensures r.Ok? ==> r.value.senderAddress == m.senderAddress && r.value.html == RenderEmail(m, o).value
    ensures r.Ok? ==> r.value.subject == o.subject && r.value.address == o.email && r.value.displayName == o.username
    ensures r.Ok? ==> r.value.cc == o.cc && r.value.bcc == o.bcc
    ensures r.Ok? ==> r.value.attachments == InlineArg(o.attachments, fetch, Error(AttachmentsMessage)).value
    ensures r.Ok? ==> (r.value.attachments.None? <==> o.attachments.NoAttachments?)
  {
    var html :- RenderEmail(m, o);
    var attachments :- InlineArg(o.attachments, fetch, Error(AttachmentsMessage));
    Ok(AzureMessage(m.senderAddress, o.subject, html, o.email, o.username, o.cc, o.bcc, attachments))
  }

  /** `sendEmail(options)`: the client's response, which may itself be
      falsy, or null when anything throws. */
  function SendEmail(m: Mailer, o: EmailOptions, fetch: Fetch, send: Send): (r: Value)
    requires o.withDefaultTemplate ==> CssSafe(m.css)
    ensures ComposeEmail(m, o, fetch).Throw? ==> r == Null
    ensures ComposeEmail(m, o, fetch).Ok? && send(0, ComposeEmail(m, o, fetch).value).Threw? ==> r == Null
    ensures Truthy(r) <==> ComposeEmail(m, o, fetch).Ok? && send(0, ComposeEmail(m, o, fetch).value).Returned?
                           && Truthy(send(0, ComposeEmail(m, o, fetch).value).response)
    ensures !r.Null? ==> ComposeEmail(m, o, fetch).Ok? && send(0, ComposeEmail(m, o, fetch).value) == Returned(r)
    ensures ComposeEmail(m, o, fetch).Ok? && send(0, ComposeEmail(m, o, fetch).value).Returned? ==>
              r == send(0, ComposeEmail(m, o, fetch).value).response
  {
    match ComposeEmail(m, o, fetch)
    case Throw(_) => Null
    case Ok(msg) =>
      match send(0, msg)
      case Threw => Null
      case Returned(response) => response
  }

  // ---------------------------------------------------------------------
  // Bulk
  // ---------------------------------------------------------------------

  /** The content every copy of a bulk send starts from: the template text,
      with CSS injected first when it is a built-in one. */
  function BulkBase(m: Mailer, o: BulkOptions): (r: Result<string>)
    ensures r.Ok? <==> ResolveTemplate(o.withDefaultTemplate, o.templateName, o.template).Some?
    ensures r.Ok? && !o.withDefaultTemplate ==> r.value == o.template.value
    ensures r.Ok? && o.withDefaultTemplate ==> r.value == InjectCss(DefaultTemplate(o.templateName).value, m.css)
  {
    var template :- TemplateText(ResolveTemplate(o.withDefaultTemplate, o.templateName, o.template));
    Ok(if o.withDefaultTemplate then InjectCss(template, m.css) else template)
  }

  /** One recipient's copy: `{...user, ...options.constants}` substituted
      into the base content, and the merged attachments. */
  function PrepareUser(m: Mailer, base: string, u: User, o: BulkOptions,
                       general: Option<seq<InlineAttachment>>, fetch: Fetch): (r: Result<AzureMessage>)
    ensures r.Ok? <==> InlineArg(u.attachments, fetch, UserAttachmentsNotArray).Ok?
    ensures r.Ok? ==> r.value.address == UserField(u, "email") && r.value.displayName == UserField(u, "username")
    ensures r.Ok? ==> r.value.subject == o.subject && r.value.cc == Undefined && r.value.bcc == Undefined
    ensures r.Ok? ==> r.value.html == SubstituteBySplitJoin(base, Spread(u.fields, BatchConstants(o)))
    ensures r.Ok? ==> r.value.senderAddress == m.senderAddress
    ensures r.Ok? ==>
              r.value.attachments == MergeAttachments(general, InlineArg(u.attachments, fetch, UserAttachmentsNotArray).value)
  {
    var own :- InlineArg(u.attachments, fetch, UserAttachmentsNotArray);
    var html := SubstituteBySplitJoin(base, Spread(u.fields, BatchConstants(o)));
    Ok(AzureMessage(m.senderAddress, o.subject, html, UserField(u, "email"), UserField(u, "username"),
                    Undefined, Undefined, MergeAttachments(general, own)))
  }

  /** `Promise.all(users.map(...))`: every copy, or the first exception. */
  function PrepareAll(m: Mailer, base: string, users: seq<User>, o: BulkOptions,
                      general: Option<seq<InlineAttachment>>, fetch: Fetch): (r: Result<seq<AzureMessage>>)
    ensures r.Ok? <==> forall i :: 0 <= i < |users| ==> PrepareUser(m, base, users[i], o, general, fetch).Ok?
    ensures r.Ok? ==> |r.value| == |users|
    ensures r.Ok? ==> forall i :: 0 <= i < |users| ==> PrepareUser(m, base, users[i], o, general, fetch) == Ok(r.value[i])
    decreases |users|
  {
    if users == [] then Ok([])
    else
      var first :- PrepareUser(m, base, users[0], o, general, fetch);
      var rest :- PrepareAll(m, base, users[1..], o, general, fetch);
      assert forall i :: 1 <= i < |users| ==> users[i] == users[1..][i - 1];
      Ok([first] + rest)
  }

  /** Everything `sendBulk` does before the first message goes out. */
  function PlanBulk(m: Mailer, o: BulkOptions, fetch: Fetch): (r: Result<seq<AzureMessage>>)
    ensures ValidateBulk(o).Some? ==> r == Throw(ValidateBulk(o).value)
    ensures r.Ok? <==>
              && ValidateBulk(o).None?
              && BulkBase(m, o).Ok?
              && InlineArg(o.attachments, fetch, Error(AttachmentsMessage)).Ok?
              && forall i :: 0 <= i < |Users(o)| ==>
                   PrepareUser(m, BulkBase(m, o).value, Users(o)[i], o,
                               InlineArg(o.attachments, fetch, Error(AttachmentsMessage)).value, fetch).Ok?
    ensures r.Ok? ==> BulkBase(m, o).Ok? && |r.value| == |Users(o)| > 0
    ensures r.Ok? ==> Addresses(r.value) == Emails(Users(o))
    ensures r.Ok? ==> forall i :: 0 <= i < |r.value| ==>
                        r.value[i] == PrepareUser(m, BulkBase(m, o).value, Users(o)[i], o,
                                                  InlineArg(o.attachments, fetch, Error(AttachmentsMessage)).value,
                                                  fetch).value
    ensures r.Ok? ==> forall i :: 0 <= i < |r.value| ==>
                        && r.value[i].address == UserField(Users(o)[i], "email")
                        && r.value[i].displayName == UserField(Users(o)[i], "username")
                        && r.value[i].subject == o.subject
                        && r.value[i].html == SubstituteBySplitJoin(BulkBase(m, o).value,
                                                                    Spread(Users(o)[i].fields, BatchConstants(o)))
  {
    if ValidateBulk(o).Some? then Throw(ValidateBulk(o).value)
    else
      var base :- BulkBase(m, o);
      var general :- InlineArg(o.attachments, fetch, Error(AttachmentsMessage));
      PrepareAll(m, base, Users(o), o, general, fetch)
  }

  function Addresses(msgs: seq<AzureMessage>): (r: seq<Value>)
    ensures |r| == |msgs|
    ensures forall i :: 0 <= i < |msgs| ==> r[i] == msgs[i].address
  {
    seq(|msgs|, i requires 0 <= i < |msgs| => msgs[i].address)
  }

  /** Which copies `_sendSingle` reports as null: the client returned a falsy response. */
  function Unanswered(msgs: seq<AzureMessage>, send: Send): (flags: seq<bool>)
    ensures |flags| == |msgs|
    ensures forall i :: 0 <= i < |msgs| ==>
              flags[i] == (send(i, msgs[i]).Returned? && !Truthy(send(i, msgs[i]).response))
  {
    seq(|msgs|, i requires 0 <= i < |msgs| => send(i, msgs[i]).Returned? && !Truthy(send(i, msgs[i]).response))
  }

  /** The sequential send loop. A falsy response marks the recipient as
      failed and the loop goes on; a throw ends it, and with it the call. */
  method SendAll(msgs: seq<AzureMessage>, emails: seq<Value>, send: Send)
    returns (failed: Option<seq<Value>>, attempts: seq<AzureMessage>)
    requires Addresses(msgs) == emails
    ensures attempts <= msgs
    ensures failed.Some? <==> forall i :: 0 <= i < |msgs| ==> send(i, msgs[i]).Returned?
    ensures failed.Some? ==> attempts == msgs && failed.value == Select(emails, Unanswered(msgs, send))
    ensures failed.Some? ==> |failed.value| <= |msgs|
    ensures failed.None? ==> 0 < |attempts| && send(|attempts| - 1, msgs[|attempts| - 1]).Threw?
    ensures forall j :: 0 <= j < |attempts| - 1 ==> send(j, msgs[j]).Returned?
  {
    var addresses := emails;
    var flags := Unanswered(msgs, send);
    var list: seq<Value> := [];
    attempts := [];
    var i := 0;
    while i < |msgs|
      invariant 0 <= i <= |msgs|
      invariant attempts == msgs[..i]
      invariant forall j :: 0 <= j < i ==> send(j, msgs[j]).Returned?
      invariant list == Select(addresses[..i], flags[..i])
    {
      attempts := attempts + [msgs[i]];
      var outcome := send(i, msgs[i]);
      if outcome.Threw? {
        return None, attempts;
      }
      SelectSnoc(addresses, flags, i);
      if !Truthy(outcome.response) {
        list := list + [msgs[i].address];
      }
      i := i + 1;
    }
    assert addresses[..i] == addresses && flags[..i] == flags;
    SelectCount(addresses, flags);
    failed := Some(list);
  }

  /** `sendBulk(options)`: null when validation, rendering or any attachment
      fails (nothing is sent then) or when the client throws; otherwise the
      queued status with the recipients whose response was falsy, in order. */
  method SendBulk(m: Mailer, o: BulkOptions, fetch: Fetch, send: Send)
    returns (report: Option<BulkReport>, attempts: seq<AzureMessage>)
    requires o.withDefaultTemplate ==> CssSafe(m.css)
    ensures PlanBulk(m, o, fetch).Throw? ==> report.None? && attempts == []
    ensures PlanBulk(m, o, fetch).Ok? ==> attempts <= PlanBulk(m, o, fetch).value
    ensures report.Some? ==> attempts == PlanBulk(m, o, fetch).value
    ensures report.Some? <==>
              && PlanBulk(m, o, fetch).Ok?
              && forall i :: 0 <= i < |Users(o)| ==> send(i, PlanBulk(m, o, fetch).value[i]).Returned?
    ensures report.Some? ==> report.value.status == QueuedStatus
    ensures report.Some? ==>
              report.value.failedEmails == Some(Select(Emails(Users(o)), Unanswered(PlanBulk(m, o, fetch).value, send)))
    ensures report.Some? ==> |report.value.failedEmails.value| <= |Users(o)|
    ensures PlanBulk(m, o, fetch).Ok? ==>
              forall j :: 0 <= j < |attempts| - 1 ==> send(j, PlanBulk(m, o, fetch).value[j]).Returned?
    ensures PlanBulk(m, o, fetch).Ok? && report.None? ==>
              0 < |attempts| && send(|attempts| - 1, PlanBulk(m, o, fetch).value[|attempts| - 1]).Threw?
  {
    var plan := PlanBulk(m, o, fetch);
    if plan.Throw? {
      return None, [];
    }
    var failed;
    failed, attempts := SendAll(plan.value, Emails(Users(o)), send);
    if failed.None? {
      return None, attempts;
    }
    report := Some(BulkReport(QueuedStatus, failed));
  }

  /** With a custom template, a recipient's copy in a bulk send carries the
      html a single send renders for that recipient with the merged
      constants `{...user, ...options.constants}`. */
  lemma BulkCopyMatchesSingleSend(m: Mailer, o: BulkOptions, base: string, u: User,
                                  general: Option<seq<InlineAttachment>>, fetch: Fetch, e: EmailOptions)
    requires !o.withDefaultTemplate && BulkBase(m, o) == Ok(base)
    requires !e.withDefaultTemplate && e.template == o.template
    requires e.constants == Some(Spread(u.fields, BatchConstants(o)))
    requires PrepareUser(m, base, u, o, general, fetch).Ok?
    ensures RenderEmail(m, e) == Ok(PrepareUser(m, base, u, o, general, fetch).value.html)
  {
  }
}

=== FILE: factory.dfy ===
/** `MailerFactory.createMailer`: picks the adapter by its name and hands
    it the matching options. */
module MailerFactory {
  import opened Js
  import opened Text
  import opened Render
  import opened Mail
  import AzureMailer
  import NodeMailer

  const InvalidTypeMessage := "Invalid mailing type. Use 'azure' or 'nodemailer'."

  datatype Mailer = Azure(azure: AzureMailer.Mailer) | Node(node: NodeMailer.Mailer)

  /** The properties `createMailer` reads from its `options`. */
  datatype Options = Options(
    connectionString: Value,
    senderAddress: Value,
    emailService: Value,
    emailUsername: Value,
    emailPassword: Value,
    transporter: Value)

  /** `createMailer(type, options, cssConfigurations)`: the type is compared
      strictly with the two names, and a constructor's exception is
      rethrown unchanged. */
  function CreateMailer(kind: Value, options: Options, css: CssConfig,
                        openClient: AzureMailer.OpenClient): (r: Result<Mailer>)
    ensures kind != Str("azure") && kind != Str("nodemailer") ==> r == Throw(Error(InvalidTypeMessage))
    ensures r.Ok? ==> (r.value.Azure? <==> kind == Str("azure"))
    ensures r.Ok? ==> (r.value.Node? <==> kind == Str("nodemailer"))
    ensures kind == Str("azure") ==>
              var a := AzureMailer.New(options.connectionString, options.senderAddress, css, openClient);
              && (r.Ok? <==> a.Ok?)
              && (r.Ok? ==> r.value.azure == a.value)
              && (r.Throw? ==> r.error == a.error)
    ensures kind == Str("nodemailer") ==>
              var n := NodeMailer.New(options.emailService, options.emailUsername, options.emailPassword,
                                      options.senderAddress, options.transporter, css);
              && (r.Ok? <==> n.Ok?)
              && (r.Ok? ==> r.value.node == n.value)
              && (r.Throw? ==> r.error == n.error)
  {
    if kind == Str("azure") then
      var a :- AzureMailer.New(options.connectionString, options.senderAddress, css, openClient);
      Ok(Azure(a))
    else if kind == Str("nodemailer") then
      var n :- NodeMailer.New(options.emailService, options.emailUsername, options.emailPassword,
                              options.senderAddress, options.transporter, css);
      Ok(Node(n))
    else Throw(Error(InvalidTypeMessage))
  }

  /** With a built-in template both adapters render `sendEmail` alike. */
  lemma BuiltInTemplatesRenderAlike(a: AzureMailer.Mailer, n: NodeMailer.Mailer, o: EmailOptions)
    requires a.css == n.css && o.withDefaultTemplate
    ensures AzureMailer.RenderEmail(a, o) == NodeMailer.RenderEmail(n, o)
  {
  }

  /** With a custom template only the Nodemailer adapter injects CSS: a
      marker the Azure adapter passes through verbatim is filled in by the
      other. */
  lemma CustomTemplatesRenderApart(a: AzureMailer.Mailer, n: NodeMailer.Mailer, o: EmailOptions,
                                   name: string, css: string)
    requires IsWordKey(name) && css != ""
    requires a.css == n.css == [(name, Some(css))]
    requires !o.withDefaultTemplate && o.template == Some(Marker(name)) && o.constants.Some?
    ensures AzureMailer.RenderEmail(a, o) == Ok(Marker(name))
    ensures NodeMailer.RenderEmail(n, o) == Ok(css)
  {
    MarkerSurvivesValues(name, o.constants.value);
    MarkerReplaced("", name, Some(css), "");
    assert "" + Marker(name) + "" == Marker(name) && "" + css + "" == css;
    assert !Occurs("", Marker(name));
  }
}

=== FILE: js.dfy ===
/** JavaScript values, exceptions and plain objects, as far as the mailers look at them. */
module Js {

  import opened Lists

  datatype Option<+T> = None | Some(value: T)

  /** A JavaScript value. Numbers are integers or NaN: fractions play no part
      in any check the mailers make. */
  datatype Value =
    | Undefined
    | Null
    | Bool(b: bool)
    | Num(n: int)
    | NaN
    | Str(s: string)
    | Fn
    | Arr(elems: seq<Value>)
    | Obj(props: seq<(string, Value)>)

  /** `!!v` */
  predicate Truthy(v: Value) {
    match v
    case Undefined => false
    case Null => false
    case Bool(b) => b
    case Num(n) => n != 0
    case NaN => false
    case Str(s) => s != ""
    case _ => true
  }

  /** Reading a property of such a value throws a TypeError. */
  predicate Nullish(v: Value) {
    v.Undefined? || v.Null?
  }

  /** `typeof v` */
  function TypeOf(v: Value): string {
    match v
    case Undefined => "undefined"
    case Null => "object"
    case Bool(_) => "boolean"
    case Num(_) => "number"
    case NaN => "number"
    case Str(_) => "string"
    case Fn => "function"
    case Arr(_) => "object"
    case Obj(_) => "object"
  }

  /** The negation of the guard `!v || typeof v !== "string"` used throughout
      the mailers' argument checks. */
  predicate IsNonEmptyString(v: Value) {
    Truthy(v) && TypeOf(v) == "string"
  }

  /** `a || b` */
  function Or(a: Value, b: Value): Value {
    if Truthy(a) then a else b
  }

  /** `obj[name]` on an object's own properties; absent properties read as undefined. */
  function Prop(props: seq<(string, Value)>, name: string): Value
    decreases |props|
  {
    if props == [] then Undefined
    else if props[0].0 == name then props[0].1
    else Prop(props[1..], name)
  }

  /** A string, or undefined when there is none. */
  function FromOption(o: Option<string>): Value {
    match o
    case Some(s) => Str(s)
    case None => Undefined
  }

  datatype Exception = Error(message: string) | TypeError(message: string)

  /** The outcome of a step that may throw; `:-` propagates the exception. */
  datatype Result<+T> = Ok(value: T) | Throw(error: Exception) {

    predicate IsFailure() {
      Throw?
    }

    function PropagateFailure<U>(): Result<U>
      requires Throw?
    {
      Throw(error)
    }

    function Extract(): T
      requires Ok?
    {
      value
    }
  }

  /** The TypeError V8 raises when a property of undefined is read. */
  function CannotRead(property: string): Exception {
    TypeError("Cannot read properties of undefined (reading '" + property + "')")
  }

  /** The TypeError V8 raises for `Object.keys(undefined)`. */
  const CannotConvertToObject := TypeError("Cannot convert undefined or null to object")

  /** The own enumerable string-valued properties of a plain object, in
      enumeration order. */
  type Entries = seq<(string, string)>

  /** `obj[key]`: the value of the first entry with that key. */
  function Get(e: Entries, key: string): Option<string>
    decreases |e|
  {
    if e == [] then None
    else if e[0].0 == key then Some(e[0].1)
    else Get(e[1..], key)
  }

  /** A key that is read comes from an entry with that key and value. */
  lemma {:induction false} GetIn(e: Entries, key: string)
    requires Get(e, key).Some?
    ensures (key, Get(e, key).value) in e
    decreases |e|
  {
    if e[0].0 != key {
      GetIn(e[1..], key);
    }
  }

  lemma {:induction false} GetAppend(x: Entries, y: Entries, key: string)
    ensures Get(x + y, key) == if Get(x, key).Some? then Get(x, key) else Get(y, key)
    decreases |x|
  {
    if x != [] {
      assert (x + y)[1..] == x[1..] + y;
      GetAppend(x[1..], y, key);
    } else {
      assert x + y == y;
    }
  }

  /** The entries of `a`, each keeping its position, with its value replaced
      by `b`'s value for the same key when `b` has one. */
  function Overridden(a: Entries, b: Entries): (r: Entries)
    ensures |r| == |a|
    ensures forall i :: 0 <= i < |a| ==> r[i].0 == a[i].0
    ensures forall i :: 0 <= i < |a| ==>
                        r[i].1 == if Get(b, a[i].0).Some? then Get(b, a[i].0).value else a[i].1
    ensures forall key :: Get(r, key) ==
                          if Get(a, key).None? then None
                          else if Get(b, key).Some? then Get(b, key)
                          else Get(a, key)
    decreases |a|
  {
    if a == [] then []
    else
      var v := if Get(b, a[0].0).Some? then Get(b, a[0].0).value else a[0].1;
      var rest := Overridden(a[1..], b);
      assert ([(a[0].0, v)] + rest)[1..] == rest;
      [(a[0].0, v)] + rest
  }

  /** For each entry of `b`, whether `a` lacks its key. */
  function NewKeys(b: Entries, a: Entries): (r: seq<bool>)
    ensures |r| == |b|
    ensures forall i :: 0 <= i < |b| ==> (r[i] <==> Get(a, b[i].0).None?)
  {
    seq(|b|, i requires 0 <= i < |b| => Get(a, b[i].0).None?)
  }

  /** Reading a key from the entries of `b` that `a` lacks. */
  lemma {:induction false} GetWithout(b: Entries, a: Entries, key: string)
    ensures Get(Select(b, NewKeys(b, a)), key) == if Get(a, key).Some? then None else Get(b, key)
    decreases |b|
  {
    if b != [] {
      var n := |b| - 1;
      assert NewKeys(b, a)[..n] == NewKeys(b[..n], a);
      GetWithout(b[..n], a, key);
      var tail := if NewKeys(b, a)[n] then [b[n]] else [];
      GetAppend(Select(b[..n], NewKeys(b[..n], a)), tail, key);
      assert b == b[..n] + [b[n]];
      GetAppend(b[..n], [b[n]], key);
    }
  }

  /** The entries of `b` whose key `a` does not have, in `b`'s order. */
  function Without(b: Entries, a: Entries): (r: Entries)
    ensures forall key :: Get(r, key) == if Get(a, key).Some? then None else Get(b, key)
    ensures forall e :: e in r <==> e in b && Get(a, e.0).None?
  {
    var keep := NewKeys(b, a);
    forall key
      ensures Get(Select(b, keep), key) == if Get(a, key).Some? then None else Get(b, key)
    {
      GetWithout(b, a, key);
    }
    forall e
      ensures e in Select(b, keep) <==> e in b && Get(a, e.0).None?
    {
      SelectMembers(b, keep, e);
    }
    Select(b, keep)
  }

  /** `{...a, ...b}`: `a`'s keys keep their positions, `b`'s new keys follow
      in `b`'s order, and on a shared key `b`'s value wins. */
  function Spread(a: Entries, b: Entries): (r: Entries)
    ensures |r| >= |a|
    ensures forall i :: 0 <= i < |a| ==> r[i].0 == a[i].0
    ensures forall i :: 0 <= i < |a| ==>
                        r[i].1 == if Get(b, a[i].0).Some? then Get(b, a[i].0).value else a[i].1
    ensures r[|a|..] == Without(b, a)
    ensures forall key :: Get(r, key) == if Get(b, key).Some? then Get(b, key) else Get(a, key)
  {
    var front := Overridden(a, b);
    var back := Without(b, a);
    forall key
      ensures Get(front + back, key) == if Get(b, key).Some? then Get(b, key) else Get(a, key)
    {
      GetAppend(front, back, key);
    }
    assert (front + back)[|a|..] == back;
    front + back
  }
}

=== FILE: lists.dfy ===
/** Ordered selection from a sequence, the shape of a bulk send's
    `failedEmails` list. */
module Lists {

  /** The elements of `xs` whose flag is set, in their original order. */
  function Select<T>(xs: seq<T>, keep: seq<bool>): seq<T>
    requires |xs| == |keep|
    decreases |xs|
  {
    if xs == [] then []
    else Select(xs[..|xs| - 1], keep[..|keep| - 1]) + (if keep[|keep| - 1] then [xs[|xs| - 1]] else [])
  }

  /** The number of set flags. */
  function Count(keep: seq<bool>): nat
    decreases |keep|
  {
    if keep == [] then 0
    else Count(keep[..|keep| - 1]) + (if keep[|keep| - 1] then 1 else 0)
  }

  /** Extending both sequences by one element extends the selection by that
      element exactly when its flag is set. */
  lemma SelectSnoc<T>(xs: seq<T>, keep: seq<bool>, i: nat)
    requires |xs| == |keep| && i < |xs|
    ensures Select(xs[..i + 1], keep[..i + 1]) ==
            Select(xs[..i], keep[..i]) + (if keep[i] then [xs[i]] else [])
  {
    assert xs[..i + 1][..i] == xs[..i];
    assert keep[..i + 1][..i] == keep[..i];
  }

  /** The selection holds exactly as many elements as there are set flags,
      so never more than the input; with no flag set it is empty. */
  lemma {:induction false} SelectCount<T>(xs: seq<T>, keep: seq<bool>)
    requires |xs| == |keep|
    ensures |Select(xs, keep)| == Count(keep) <= |xs|
    ensures Count(keep) == 0 <==> forall i :: 0 <= i < |keep| ==> !keep[i]
    decreases |xs|
  {
    if xs != [] {
      var n := |xs| - 1;
      SelectCount(xs[..n], keep[..n]);
      assert forall i :: 0 <= i < n ==> keep[..n][i] == keep[i];
    }
  }

  /** `x` sits in `xs` at some position whose flag is set. */
  ghost predicate Flagged<T>(xs: seq<T>, keep: seq<bool>, x: T)
    requires |xs| == |keep|
  {
    exists i :: 0 <= i < |xs| && keep[i] && xs[i] == x
  }

  /** Every selected element is an element of the input whose flag is set,
      and every element whose flag is set is selected. */
  lemma {:induction false} SelectMembers<T>(xs: seq<T>, keep: seq<bool>, x: T)
    requires |xs| == |keep|
    ensures x in Select(xs, keep) <==> Flagged(xs, keep, x)
    decreases |xs|
  {
    if xs != [] {
      var n := |xs| - 1;
      SelectMembers(xs[..n], keep[..n], x);
      if x in Select(xs[..n], keep[..n]) {
        var i :| 0 <= i < n && keep[..n][i] && xs[..n][i] == x;
        assert keep[i] && xs[i] == x;
      }
      if Flagged(xs, keep, x) {
        var i :| 0 <= i < |xs| && keep[i] && xs[i] == x;
        if i < n {
          assert keep[..n][i] && xs[..n][i] == x;
        }
      }
    }
  }
}

=== FILE: mail.dfy ===
/** The request and response shapes both mailers share, their fixed
    messages, and what a transport call can do. */
module Mail {
  import opened Js

  const SenderAddressMessage := "Invalid or missing 'senderAddress'. Please provide a valid sender's email address."
  const SubjectMessage := "Invalid or missing 'subject'. Please provide a valid subject."
  const UsersMessage := "Invalid 'users'. It should be a non-empty array."
  const AttachmentsMessage := "Invalid 'attachments'. It should be an array."
  const QueuedStatus := "Emails queued for sending"
  const DefaultAttachmentName := "attachment"

  /** `user.attachments.map(...)` on a truthy value that is not an array. */
  const UserAttachmentsNotArray := TypeError("user.attachments.map is not a function")

  /** An attachment as the caller describes it. */
  datatype Attachment = Attachment(name: Value, contentType: Value, url: Value)

  /** An `attachments` option: falsy, truthy but not an array, or an array. */
  datatype AttachmentsArg =
    | NoAttachments
    | NotAnArray
    | Attachments(items: seq<Attachment>)

  /** One entry of `users`: its string-valued properties in enumeration order
      and its `attachments` property. */
  datatype User = User(fields: Entries, attachments: AttachmentsArg)

  /** `user[key]` */
  function UserField(u: User, key: string): Value {
    FromOption(Get(u.fields, key))
  }

  /** The options of `sendEmail`. `templateName` is the property coerced to a
      key; `constants` is None when it is undefined or null. */
  datatype EmailOptions = EmailOptions(
    withDefaultTemplate: bool,
    templateName: string,
    template: Option<string>,
    constants: Option<Entries>,
    subject: Value,
    email: Value,
    username: Value,
    replyTo: Value,
    message: Value,
    cc: Value,
    bcc: Value,
    attachments: AttachmentsArg)

  /** The options of `sendBulk`; `users` is None when it is not an array. */
  datatype BulkOptions = BulkOptions(
    withDefaultTemplate: bool,
    templateName: string,
    template: Option<string>,
    constants: Option<Entries>,
    subject: Value,
    users: Option<seq<User>>,
    attachments: AttachmentsArg)

  /** The entries spread from `options.constants`; spreading undefined adds none. */
  function BatchConstants(o: BulkOptions): Entries {
    match o.constants
    case Some(e) => e
    case None => []
  }

  /** `template.toString()`: undefined has no `toString`. */
  function TemplateText(template: Option<string>): (r: Result<string>)
    ensures r.Ok? <==> template.Some?
    ensures r.Ok? ==> r.value == template.value
    ensures r.Throw? ==> r.error == CannotRead("toString")
  {
    match template
    case Some(t) => Ok(t)
    case None => Throw(CannotRead("toString"))
  }

  /** `Object.keys(options.constants)`: undefined and null have no keys. */
  function ConstantsOf(constants: Option<Entries>): (r: Result<Entries>)
    ensures r.Ok? <==> constants.Some?
    ensures r.Ok? ==> r.value == constants.value
    ensures r.Throw? ==> r.error == CannotConvertToObject
  {
    match constants
    case Some(c) => Ok(c)
    case None => Throw(CannotConvertToObject)
  }

  /** A transport call either returns a value or throws. */
  datatype SendOutcome = Returned(response: Value) | Threw

  /** `{status, failedEmails}`, or `{status}` alone when `failedEmails` is None. */
  datatype BulkReport = BulkReport(status: string, failedEmails: Option<seq<Value>>)

  /** The `sendBulk` argument checks both mailers make, in their order. */
  function ValidateBulk(o: BulkOptions): (r: Option<Exception>)
    ensures r.None? <==> IsNonEmptyString(o.subject) && o.users.Some? && |o.users.value| > 0
    ensures !IsNonEmptyString(o.subject) ==> r == Some(Error(SubjectMessage))
    ensures IsNonEmptyString(o.subject) && r.Some? ==> r == Some(Error(UsersMessage))
  {
    if !IsNonEmptyString(o.subject) then Some(Error(SubjectMessage))
    else if o.users.None? || o.users.value == [] then Some(Error(UsersMessage))
    else None
  }

  /** The users of a bulk request that passed validation. */
  function Users(o: BulkOptions): seq<User> {
    match o.users
    case Some(us) => us
    case None => []
  }

  /** `users.map(user => user.email)` */
  function Emails(users: seq<User>): (r: seq<Value>)
    ensures |r| == |users|
    ensures forall i :: 0 <= i < |users| ==> r[i] == UserField(users[i], "email")
  {
    seq(|users|, i requires 0 <= i < |users| => UserField(users[i], "email"))
  }
}

=== FILE: nodemailer.dfy ===
/** The Nodemailer mailer: constructor guards, a single send whose
    rendering errors reject the call, and a bulk send that renders, attaches
    and sends each recipient's copy in turn, so one recipient's transport
    failure does not stop the others. */
module NodeMailer {
  import opened Js
  import opened Text
  import opened Render
  import opened Mail
  import opened Lists

  const ServiceMessage := "Invalid or missing email service provided"
  const UsernameMessage := "Invalid or missing email username provided"
  const PasswordMessage := "Invalid or missing email password service provided"
  const TransporterMessage := "Invalid Nodemailer Transporter"
  const SentResponse := "Email sent successfully"
  const SendingErrorPrefix := "Sending Error: "

  /** The transporter: one built from the service credentials, or the
      caller's own. */
  datatype Transport =
    | DefaultTransport(service: string, user: string, pass: string)
    | CustomTransport(transporter: Value)

  datatype Mailer = Mailer(senderAddress: string, css: CssConfig, transport: Transport)

  /** `v.name` for a value that is not nullish; only plain objects have
      own properties here. */
  function Member(v: Value, name: string): Value {
    if v.Obj? then Prop(v.props, name) else Undefined
  }

  /** A transporter the constructor accepts: a plain object whose `sendMail`
      is a function. */
  predicate HasSendMail(t: Value) {
    t.Obj? && Prop(t.props, "sendMail") == Fn
  }

  /** `new NodeMailer(emailService, emailUsername, emailPassword,
      senderAddress, transporter, cssConfigurations)` */
  function New(service: Value, username: Value, password: Value, senderAddress: Value,
               transporter: Value, css: CssConfig): (r: Result<Mailer>)
    ensures r.Ok? <==>
              && IsNonEmptyString(service) && IsNonEmptyString(username)
              && IsNonEmptyString(password) && IsNonEmptyString(senderAddress)
              && (Truthy(transporter) ==> HasSendMail(transporter))
    ensures !IsNonEmptyString(service) ==> r == Throw(Error(ServiceMessage))
    ensures IsNonEmptyString(service) && !IsNonEmptyString(username) ==> r == Throw(Error(UsernameMessage))
    ensures IsNonEmptyString(service) && IsNonEmptyString(username) && !IsNonEmptyString(password) ==>
              r == Throw(Error(PasswordMessage))
    ensures (IsNonEmptyString(service) && IsNonEmptyString(username) && IsNonEmptyString(password) &&
             !IsNonEmptyString(senderAddress)) ==> r == Throw(Error(SenderAddressMessage))
    ensures (IsNonEmptyString(service) && IsNonEmptyString(username) && IsNonEmptyString(password) &&
             IsNonEmptyString(senderAddress) && r.Throw?) ==> r == Throw(Error(TransporterMessage))
    ensures r.Ok? ==> r.value.senderAddress == senderAddress.s && r.value.css == css
    ensures r.Ok? && Truthy(transporter) ==> r.value.transport == CustomTransport(transporter)
    ensures r.Ok? && !Truthy(transporter) ==>
              r.value.transport == DefaultTransport(service.s, username.s, password.s)
  {
    if !IsNonEmptyString(service) then Throw(Error(ServiceMessage))
    else if !IsNonEmptyString(username) then Throw(Error(UsernameMessage))
    else if !IsNonEmptyString(password) then Throw(Error(PasswordMessage))
    else if !IsNonEmptyString(senderAddress) then Throw(Error(SenderAddressMessage))
    else if Truthy(transporter) &&
            (TypeOf(transporter) != "object" || transporter == Null ||
             TypeOf(Member(transporter, "sendMail")) != "function")
    then Throw(Error(TransporterMessage))
    else
      var transport := if Truthy(transporter) then CustomTransport(transporter)
                       else DefaultTransport(service.s, username.s, password.s);
      Ok(Mailer(senderAddress.s, css, transport))
  }

  // ---------------------------------------------------------------------
  // Messages
  // ---------------------------------------------------------------------

  /** An attachment as Nodemailer receives it: a file name and a path. */
  datatype NodeAttachment = NodeAttachment(filename: Value, path: Value)

  /** `attachments.map(a => ({filename: a.name || "attachment", path: a.url}))` */
  function ToNodeAttachments(items: seq<Attachment>): (r: seq<NodeAttachment>)
    ensures |r| == |items|
    ensures forall i :: 0 <= i < |items| ==>
              && Truthy(r[i].filename)
              && (Truthy(items[i].name) ==> r[i].filename == items[i].name)
              && (!Truthy(items[i].name) ==> r[i].filename == Str(DefaultAttachmentName))
              && r[i].path == items[i].url
  {
    seq(|items|, i requires 0 <= i < |items| =>
      NodeAttachment(Or(items[i].name, Str(DefaultAttachmentName)), items[i].url))
  }

  /** The `mailOptions` handed to `transporter.sendMail`; `html` is None
      when it is undefined. */
  datatype NodeMessage = NodeMessage(
    from: string,
    to: Value,
    replyTo: Value,
    subject: Value,
    text: Value,
    html: Option<string>,
    attachments: Option<seq<NodeAttachment>>)

  /** The transporter: what `sendMail` resolves to for the n-th message, or
      a throw. */
  type Send = (nat, NodeMessage) -> SendOutcome

  /** A send counts as done when `sendMail` resolved to a value whose
      `response` can be read. */
  predicate Delivered(outcome: SendOutcome) {
    outcome.Returned? && !Nullish(outcome.response)
  }

  // ---------------------------------------------------------------------
  // A single email
  // ---------------------------------------------------------------------

  /** The html body of `sendEmail`: values substituted, then CSS injected,
      whatever the template. */
  function RenderEmail(m: Mailer, o: EmailOptions): (r: Result<string>)
    ensures r.Ok? <==> ResolveTemplate(o.withDefaultTemplate, o.templateName, o.template).Some? && o.constants.Some?
    ensures ResolveTemplate(o.withDefaultTemplate, o.templateName, o.template).None? ==> r == Throw(CannotRead("toString"))
    ensures ResolveTemplate(o.withDefaultTemplate, o.templateName, o.template).Some? && o.constants.None? ==>
              r == Throw(CannotConvertToObject)
    ensures r.Ok? ==>
              r.value == InjectCss(SubstituteBySplitJoin(ResolveTemplate(o.withDefaultTemplate, o.templateName, o.template).value,
                                                         o.constants.value), m.css)
  {
    var template :- TemplateText(ResolveTemplate(o.withDefaultTemplate, o.templateName, o.template));
    var constants :- ConstantsOf(o.constants);
    Ok(InjectCss(SubstituteBySplitJoin(template, constants), m.css))
  }

  /** The message `sendEmail` builds, or the exception that rejects it. */
  function ComposeEmail(m: Mailer, o: EmailOptions): (r: Result<NodeMessage>)
    ensures r.Ok? <==> RenderEmail(m, o).Ok? && !o.attachments.NotAnArray?
    ensures RenderEmail(m, o).Throw? ==> r == Throw(RenderEmail(m, o).error)
    ensures RenderEmail(m, o).Ok? && o.attachments.NotAnArray? ==> r == Throw(Error(AttachmentsMessage))
    ensures r.Ok? ==> r.value.from == m.senderAddress && r.value.html == Some(RenderEmail(m, o).value)
    ensures r.Ok? ==> r.value.to == o.email && r.value.replyTo == o.replyTo
    ensures r.Ok? ==> r.value.subject == o.subject && r.value.text == o.message
    ensures r.Ok? ==> (r.value.attachments.None? <==> o.attachments.NoAttachments?)
    ensures r.Ok? && o.attachments.Attachments? ==>
              r.value.attachments == Some(ToNodeAttachments(o.attachments.items))
  {
    var html :- RenderEmail(m, o);
    match o.attachments
    case NotAnArray => Throw(Error(AttachmentsMessage))
    case NoAttachments => Ok(NodeMessage(m.senderAddress, o.email, o.replyTo, o.subject, o.message, Some(html), None))
    case Attachments(items) =>
      Ok(NodeMessage(m.senderAddress, o.email, o.replyTo, o.subject, o.message, Some(html), Some(ToNodeAttachments(items))))
  }

  const SentBody := Obj([("response", Str(SentResponse))])

  /** `sendEmail(options)`: rejects with a rendering or attachment error;
      otherwise resolves to the success object, or to undefined when the
      transport throws or gives no info back. */
  function SendEmail(m: Mailer, o: EmailOptions, send: Send): (r: Result<Value>)
    requires CssSafe(m.css)
    ensures r.Throw? <==> ComposeEmail(m, o).Throw?
    ensures r.Throw? ==> r.error == ComposeEmail(m, o).error
    ensures r.Ok? ==> r.value == SentBody || r.value == Undefined
    ensures r.Ok? ==> (r.value == SentBody <==> Delivered(send(0, ComposeEmail(m, o).value)))
  {
    var msg :- ComposeEmail(m, o);
    Ok(if Delivered(send(0, msg)) then SentBody else Undefined)
  }

  // ---------------------------------------------------------------------
  // Bulk
  // ---------------------------------------------------------------------

  /** What `sendBulk` computes before its loop: the content with CSS
      injected (the template itself, not its text, so an undefined template
      survives an empty configuration) and the general attachments. */
  datatype BulkSetup = BulkSetup(base: Option<string>, general: seq<NodeAttachment>)

  function Setup(m: Mailer, o: BulkOptions): (r: Result<BulkSetup>)
    ensures ValidateBulk(o).Some? ==> r == Throw(ValidateBulk(o).value)
    ensures ValidateBulk(o).None? ==>
              (r.Ok? <==> (ResolveTemplate(o.withDefaultTemplate, o.templateName, o.template).Some? || m.css == [])
                          && !o.attachments.NotAnArray?)
    ensures (ValidateBulk(o).None? && ResolveTemplate(o.withDefaultTemplate, o.templateName, o.template).None? &&
             m.css != []) ==> r == Throw(CannotRead("replace"))
    ensures r.Ok? ==> (r.value.base.None? <==> ResolveTemplate(o.withDefaultTemplate, o.templateName, o.template).None?)
    ensures r.Ok? && ResolveTemplate(o.withDefaultTemplate, o.templateName, o.template).Some? ==>
              r.value.base == Some(InjectCss(ResolveTemplate(o.withDefaultTemplate, o.templateName, o.template).value, m.css))
    ensures r.Ok? && o.attachments.Attachments? ==> r.value.general == ToNodeAttachments(o.attachments.items)
    ensures r.Ok? && o.attachments.NoAttachments? ==> r.value.general == []
    ensures (ValidateBulk(o).None? &&
             (ResolveTemplate(o.withDefaultTemplate, o.templateName, o.template).Some? || m.css == []) &&
             o.attachments.NotAnArray?) ==> r == Throw(Error(AttachmentsMessage))
  {
    if ValidateBulk(o).Some? then Throw(ValidateBulk(o).value)
    else
      var base :- match ResolveTemplate(o.withDefaultTemplate, o.templateName, o.template)
                  case Some(t) => Ok(Some(InjectCss(t, m.css)))
                  case None => if m.css == [] then Ok(None) else Throw(CannotRead("replace"));
      match o.attachments
      case NotAnArray => Throw(Error(AttachmentsMessage))
      case NoAttachments => Ok(BulkSetup(base, []))
      case Attachments(items) => Ok(BulkSetup(base, ToNodeAttachments(items)))
  }

  /** `Object.entries({...user, ...options.constants})` is empty. */
  predicate NoEntries(u: User, o: BulkOptions) {
    Spread(u.fields, BatchConstants(o)) == [] && u.attachments.NoAttachments?
  }

  /** One recipient's html: each entry of `{...user, ...options.constants}`
      replaced in turn; with no content at all, the first replacement throws. */
  function RenderCopy(base: Option<string>, u: User, o: BulkOptions): (r: Result<Option<string>>)
    ensures r.Ok? <==> base.Some? || NoEntries(u, o)
    ensures r.Throw? ==> r.error == CannotRead("replace")
    ensures r.Ok? ==> (r.value.None? <==> base.None?)
    ensures base.Some? ==> r == Ok(Some(SubstituteByRegex(base.value, Spread(u.fields, BatchConstants(o)))))
  {
    match base
    case Some(content) => Ok(Some(SubstituteByRegex(content, Spread(u.fields, BatchConstants(o)))))
    case None => if NoEntries(u, o) then Ok(None) else Throw(CannotRead("replace"))
  }

  /** With constants of word keys that are not all digits and values free of
      `$` patterns, the literal substitution of RenderCopy is what the
      source's regular expressions do. */
  lemma RenderCopyAsWritten(base: string, u: User, o: BulkOptions)
    requires RegexSafe(u.fields) && RegexSafe(BatchConstants(o))
    ensures RegexSafe(Spread(u.fields, BatchConstants(o)))
    ensures RenderCopy(Some(base), u, o) == Ok(Some(SubstituteAsWritten(base, Spread(u.fields, BatchConstants(o)))))
  {
    SpreadRegexSafe(u.fields, BatchConstants(o));
    AsWrittenAgreesWithoutDigitKeys(base, Spread(u.fields, BatchConstants(o)));
  }

  /** One recipient's message, or the exception that ends the whole call. */
  function PrepareCopy(m: Mailer, s: BulkSetup, u: User, o: BulkOptions): (r: Result<NodeMessage>)
    ensures r.Ok? <==> RenderCopy(s.base, u, o).Ok? && !u.attachments.NotAnArray?
    ensures RenderCopy(s.base, u, o).Throw? ==> r == Throw(RenderCopy(s.base, u, o).error)
    ensures RenderCopy(s.base, u, o).Ok? && u.attachments.NotAnArray? ==> r == Throw(UserAttachmentsNotArray)
    ensures r.Ok? ==> r.value.from == m.senderAddress
    ensures r.Ok? ==> r.value.to == UserField(u, "email") && r.value.subject == o.subject
    ensures r.Ok? ==> r.value.replyTo == UserField(u, "replyTo") && r.value.text == UserField(u, "message")
    ensures r.Ok? ==> r.value.html == RenderCopy(s.base, u, o).value
    ensures r.Ok? ==> (r.value.attachments.None? <==> s.general == [] && (u.attachments.Attachments? ==> u.attachments.items == []))
    ensures r.Ok? && r.value.attachments.Some? ==>
              r.value.attachments.value ==
              s.general + (if u.attachments.Attachments? then ToNodeAttachments(u.attachments.items) else [])
  {
    var html :- RenderCopy(s.base, u, o);
    var own :- match u.attachments
               case NotAnArray => Throw(UserAttachmentsNotArray)
               case NoAttachments => Ok([])
               case Attachments(items) => Ok(ToNodeAttachments(items));
    var all := s.general + own;
    Ok(NodeMessage(m.senderAddress, UserField(u, "email"), UserField(u, "replyTo"), o.subject,
                   UserField(u, "message"), html, if |all| > 0 then Some(all) else None))
  }

  /** Which of the messages sent did not count as done. */
  function Undelivered(msgs: seq<NodeMessage>, send: Send): (flags: seq<bool>)
    ensures |flags| == |msgs|
    ensures forall i :: 0 <= i < |msgs| ==> flags[i] == !Delivered(send(i, msgs[i]))
  {
    seq(|msgs|, i requires 0 <= i < |msgs| => !Delivered(send(i, msgs[i])))
  }

  /** Sending one more message extends the failed list by its recipient
      exactly when the send did not count as done. */
  lemma UndeliveredSnoc(emails: seq<Value>, msgs: seq<NodeMessage>, x: NodeMessage, send: Send)
    requires |msgs| < |emails|
    ensures Select(emails[..|msgs| + 1], Undelivered(msgs + [x], send)) ==
            Select(emails[..|msgs|], Undelivered(msgs, send)) +
            (if Delivered(send(|msgs|, x)) then [] else [emails[|msgs|]])
  {
    var i := |msgs|;
    var next := Undelivered(msgs + [x], send);
    SelectSnoc(emails[..i + 1], next, i);
    assert emails[..i + 1][..i] == emails[..i];
    assert next[..i] == Undelivered(msgs, send);
    assert next[..i + 1] == next;
  }

  /** The loop of `sendBulk`: `copies[j]` is the j-th recipient's message
      or the exception preparing it throws, `emails[j]` their address. */
  method SendInOrder(copies: seq<Result<NodeMessage>>, emails: seq<Value>, send: Send)
    returns (report: BulkReport, attempts: seq<NodeMessage>)
    requires |emails| == |copies|
    ensures |attempts| <= |copies| && forall j :: 0 <= j < |attempts| ==> copies[j] == Ok(attempts[j])
    ensures |attempts| < |copies| ==>
              copies[|attempts|].Throw? &&
              report == BulkReport(SendingErrorPrefix + copies[|attempts|].error.message, None)
    ensures |attempts| == |copies| ==>
              report == BulkReport(QueuedStatus, Some(Select(emails, Undelivered(attempts, send))))
    ensures report.failedEmails.Some? ==> |attempts| == |copies| && |report.failedEmails.value| <= |copies|
  {
    var failed: seq<Value> := [];
    attempts := [];
    while |attempts| < |copies|
      invariant |attempts| <= |copies|
      invariant forall j :: 0 <= j < |attempts| ==> copies[j] == Ok(attempts[j])
      invariant failed == Select(emails[..|attempts|], Undelivered(attempts, send))
      decreases |copies| - |attempts|
    {
      var i := |attempts|;
      var copy := copies[i];
      if copy.Throw? {
        return BulkReport(SendingErrorPrefix + copy.error.message, None), attempts;
      }
      UndeliveredSnoc(emails, attempts, copy.value, send);
      if !Delivered(send(i, copy.value)) {
        failed := failed + [emails[i]];
      }
      attempts := attempts + [copy.value];
    }
    assert emails[..|attempts|] == emails;
    SelectCount(emails, Undelivered(attempts, send));
    report := BulkReport(QueuedStatus, Some(failed));
  }

  /** `sendBulk(options)`. A setup error gives a "Sending Error" status
      and nothing is sent. Otherwise the recipients are handled in order:
      a failed or empty send only puts that recipient on the failed list,
      while an error preparing a copy ends the call with a "Sending Error"
      status after the earlier copies have gone out. */
  method SendBulk(m: Mailer, o: BulkOptions, send: Send) returns (report: BulkReport, attempts: seq<NodeMessage>)
    requires CssSafe(m.css)
    requires RegexSafe(BatchConstants(o))
    requires forall i :: 0 <= i < |Users(o)| ==> RegexSafe(Users(o)[i].fields)
    ensures Setup(m, o).Throw? ==>
              report == BulkReport(SendingErrorPrefix + Setup(m, o).error.message, None) && attempts == []
    ensures Setup(m, o).Ok? ==>
              && |attempts| <= |Users(o)|
              && forall j :: 0 <= j < |attempts| ==> PrepareCopy(m, Setup(m, o).value, Users(o)[j], o) == Ok(attempts[j])
    ensures Setup(m, o).Ok? && |attempts| < |Users(o)| ==>
              && PrepareCopy(m, Setup(m, o).value, Users(o)[|attempts|], o).Throw?
              && report == BulkReport(SendingErrorPrefix + PrepareCopy(m, Setup(m, o).value, Users(o)[|attempts|], o).error.message, None)
    ensures Setup(m, o).Ok? && |attempts| == |Users(o)| ==>
              report == BulkReport(QueuedStatus, Some(Select(Emails(Users(o)), Undelivered(attempts, send))))
    ensures report.failedEmails.Some? ==> |report.failedEmails.value| <= |Users(o)|
  {
    var setup := Setup(m, o);
    if setup.Throw? {
      return BulkReport(SendingErrorPrefix + setup.error.message, None), [];
    }
    var users := Users(o);
    var copies := seq(|users|, j requires 0 <= j < |users| => PrepareCopy(m, setup.value, users[j], o));
    report, attempts := SendInOrder(copies, Emails(users), send);
  }

  // ---------------------------------------------------------------------
  // The two rendering orders
  // ---------------------------------------------------------------------

  /** A constant whose value is itself a CSS marker: `sendEmail` injects CSS
      after substituting values, so the marker is filled in, while
      `sendBulk` injects CSS before, so the marker reaches the recipient. */
  lemma CssOrderDiffers(m: Mailer, o: EmailOptions, b: BulkOptions, u: User,
                        name: string, fill: string, key: string)
    requires IsWordKey(name) && fill != "" && IsWordKey(key) && !IsDigits(key)
    requires m.css == [(name, Some(fill))]
    requires !o.withDefaultTemplate && o.template == Some(Placeholder(key))
    requires o.constants == Some([(key, Marker(name))])
    requires !b.withDefaultTemplate && b.template == Some(Placeholder(key))
    requires b.constants == Some([(key, Marker(name))])
    requires ValidateBulk(b).None? && !b.attachments.NotAnArray?
    requires u.fields == []
    ensures RenderEmail(m, o) == Ok(fill)
    ensures Setup(m, b).Ok? && RenderCopy(Setup(m, b).value.base, u, b) == Ok(Some(Marker(name)))
  {
    ValuesThenCss(name, fill, key);
    CssThenValues(name, fill, key);
    var constants := [(key, Marker(name))];
    assert Spread(u.fields, constants) == constants by {
      assert NewKeys(constants, []) == [true];
      assert Select(constants, [true]) == Select([], []) + [constants[0]];
    }
  }

  /** A bulk send to one recipient puts them on the failed list exactly when
      `sendEmail` with the same message resolves to undefined. */
  lemma OneRecipientFailsLikeSendEmail(m: Mailer, o: EmailOptions, send: Send, email: Value)
    requires CssSafe(m.css) && ComposeEmail(m, o).Ok?
    ensures Select([email], Undelivered([ComposeEmail(m, o).value], send)) ==
            if SendEmail(m, o, send) == Ok(Undefined) then [email] else []
  {
  }
}

=== FILE: render.dfy ===
/** The template renderer both mailers share: value placeholders `#{key}`,
    CSS injection points written as the comment `/` `* @NAME *` `/`, the
    built-in templates and style defaults, and the two substitution paths. */
module Render {
  import opened Js
  import opened Text

  // ---------------------------------------------------------------------
  // Marker syntax
  // ---------------------------------------------------------------------

  /** A character of the class `[A-Za-z0-9_]`. */
  predicate IsWordChar(c: char) {
    'a' <= c <= 'z' || 'A' <= c <= 'Z' || '0' <= c <= '9' || c == '_'
  }

  /** A key or name that a regular expression built around it matches
      literally, apart from the all-digit case (see KeyRegexMatch). */
  predicate IsWordKey(k: string) {
    forall i :: 0 <= i < |k| ==> IsWordChar(k[i])
  }

  /** A replacement string in which no `$` starts one of the patterns `$$`,
      `$&`, `` $` `` or `$'`. The expressions built here have no capture
      groups, so every other `$` stands for itself. */
  predicate NoReplacementPattern(s: string) {
    forall i :: 0 <= i < |s| - 1 && s[i] == '$' ==> s[i + 1] !in "$&`'"
  }

  /** The value placeholder for `key`. */
  function Placeholder(key: string): string {
    "#{" + key + "}"
  }

  /** The CSS injection point for `name`. */
  function Marker(name: string): string {
    "/* @" + name + " */"
  }

  /** Two markers of the shape `open + name + close` around word names can
      only occur in one another when the names are equal, provided the
      opening character is not repeated in `open` and neither delimiter
      starts with a word character. */
  lemma DelimitedUnique(open: string, close: string, m: string, n: string)
    requires |open| > 0 && |close| > 0
    requires !IsWordChar(open[0]) && !IsWordChar(close[0])
    requires open[0] !in open[1..]
    requires IsWordKey(m) && IsWordKey(n)
    requires Occurs(open + n + close, open + m + close)
    ensures m == n
  {
    var t := open + n + close;
    var p := open + m + close;
    var i :| OccursAt(t, p, i);
    assert t[i] == p[0] == open[0];
    assert i == 0;
    // the character after m in p closes the marker, so n cannot go on past m
    var j := |open| + |m|;
    assert t[j] == p[j] == close[0];
    assert forall k :: |open| <= k < |open| + |n| ==> t[k] == n[k - |open|];
    assert |m| == |n|;
    assert m == t[|open|..|open| + |n|] == n;
  }

  /** Distinct word keys have placeholders that do not occur in one another. */
  lemma PlaceholderUnique(m: string, n: string)
    requires IsWordKey(m) && IsWordKey(n) && m != n
    ensures !Occurs(Placeholder(n), Placeholder(m))
  {
    if Occurs(Placeholder(n), Placeholder(m)) {
      DelimitedUnique("#{", "}", m, n);
    }
  }

  /** Distinct word names have markers that do not occur in one another. */
  lemma MarkerUnique(m: string, n: string)
    requires IsWordKey(m) && IsWordKey(n) && m != n
    ensures !Occurs(Marker(n), Marker(m))
  {
    if Occurs(Marker(n), Marker(m)) {
      DelimitedUnique("/* @", " */", m, n);
    }
  }

  /** The two kinds of marker never overlap: no placeholder occurs in a CSS
      marker. */
  lemma MarkerHasNoPlaceholder(name: string, key: string)
    requires IsWordKey(name)
    ensures !Occurs(Marker(name), Placeholder(key))
  {
    var t := Marker(name);
    assert forall k :: 4 <= k < 4 + |name| ==> t[k] == name[k - 4];
    assert forall k :: 0 <= k < |t| ==> t[k] != '#';
    assert Placeholder(key)[0] == '#';
  }

  // ---------------------------------------------------------------------
  // Built-in templates and style defaults (short stand-ins carrying the
  // same markers as the originals)
  // ---------------------------------------------------------------------

  /** `defaultCSS[name]`, None for a name it does not have. */
  function DefaultCss(name: string): Option<string> {
    match name
    case "USER_DEFINED_BODY_CSS" => Some("font-size: 16px; color: #333;")
    case "USER_DEFINED_CONTAINER_CSS" => Some("background-color: #f7f5f5; max-width: 600px;")
    case "USER_DEFINED_H1_CSS" => Some("color: #ff0000; font-size: 24px;")
    case "USER_DEFINED_P_CSS" => Some("font-size: 16px; width:100%;")
    case "USER_DEFINED_BUTTON_CSS" => Some("width: 150px; color: #ffffff;")
    case "USER_DEFINED_NOTE_CSS" => Some("font-size: 14px; color: #888;")
    case _ => None
  }

  /** The style block the built-in templates share. */
  function TemplateStyle(): string {
    "<style>body { " + Marker("USER_DEFINED_BODY_CSS") +
    " } .container { " + Marker("USER_DEFINED_CONTAINER_CSS") +
    " } h1 { " + Marker("USER_DEFINED_H1_CSS") + " }</style>"
  }

  /** `defaultTemplate[name]`, None for a name it does not have. */
  function DefaultTemplate(name: string): Option<string> {
    match name
    case "welcome" =>
      Some(TemplateStyle() + "<h1>Welcome to " + Placeholder("platform") + "</h1><p>Hi " +
           Placeholder("username") + ",</p><p>" + Placeholder("body") +
           "</p><p>Best regards,</p><p>" + Placeholder("sender") + " </p>")
    case "passwordReset" =>
      Some(TemplateStyle() + "<p>Hello " + Placeholder("username") + ",</p><a class=\"button\" href=\"" +
           Placeholder("resetLink") + "\">Reset Password</a><p>" + Placeholder("sender") + "</p>")
    case "orderConfirmation" =>
      Some(TemplateStyle() + "<p>Dear " + Placeholder("username") + ",</p><p>Your order with order ID " +
           Placeholder("orderID") + " has been confirmed.</p><p>" + Placeholder("sender") + "</p>")
    case "newsletterSubscription" =>
      Some(TemplateStyle() + "<p>Dear " + Placeholder("username") + ",</p><a class=\"button\" href=\"" +
           Placeholder("unsubscribeLink") + "\">Unsubscribe</a><p>" + Placeholder("sender") + "</p>")
    case _ => None
  }

  /** `withDefaultTemplate ? defaultTemplate[templateName] : template`, with
      undefined (None) for an unknown template name or a missing template. */
  function ResolveTemplate(withDefaultTemplate: bool, templateName: string, template: Option<string>): Option<string> {
    if withDefaultTemplate then DefaultTemplate(templateName) else template
  }

  // ---------------------------------------------------------------------
  // Value substitution
  // ---------------------------------------------------------------------

  /** `content.split("#{" + key + "}").join(value)` */
  function SplitJoinStep(content: string, key: string, value: string): string {
    Join(Split(content, Placeholder(key)), value)
  }

  /** The split/join path: each key of `constants`, in enumeration order,
      has its placeholders replaced in the result of the keys before it. */
  function SubstituteBySplitJoin(content: string, constants: Entries): string
    decreases |constants|
  {
    if constants == [] then content
    else SubstituteBySplitJoin(SplitJoinStep(content, constants[0].0, constants[0].1), constants[1..])
  }

  /** The regular-expression path, `content.replace(keyRegex, value)` for a
      global expression matching the placeholder literally. */
  function SubstituteByRegex(content: string, constants: Entries): string
    decreases |constants|
  {
    if constants == [] then content
    else SubstituteByRegex(ReplaceAll(content, Placeholder(constants[0].0), constants[0].1), constants[1..])
  }

  /** An entry a regular-expression substitution handles literally: a word
      key that is not all digits, and a value with no `$` replacement pattern. */
  predicate SafeEntry(e: (string, string)) {
    IsWordKey(e.0) && !IsDigits(e.0) && NoReplacementPattern(e.1)
  }

  predicate RegexSafe(constants: Entries) {
    forall i :: 0 <= i < |constants| ==> SafeEntry(constants[i])
  }

  /** Merging two safe sets of constants with `{...a, ...b}` keeps them safe:
      every merged entry has a key of `a` or `b` and a value of `a` or `b`. */
  lemma SpreadRegexSafe(a: Entries, b: Entries)
    requires RegexSafe(a) && RegexSafe(b)
    ensures RegexSafe(Spread(a, b))
  {
    var r := Spread(a, b);
    forall i | 0 <= i < |r|
      ensures SafeEntry(r[i])
    {
      if i < |a| {
        assert SafeEntry(a[i]);
        if Get(b, a[i].0).Some? {
          GetIn(b, a[i].0);
          var j :| 0 <= j < |b| && b[j] == (a[i].0, Get(b, a[i].0).value);
          assert SafeEntry(b[j]);
        }
      } else {
        assert r[i] == r[|a|..][i - |a|];
        assert r[i] in b;
        var j :| 0 <= j < |b| && b[j] == r[i];
        assert SafeEntry(b[j]);
      }
    }
  }

  /** Both substitution paths render the same content. */
  lemma {:induction false} SubstitutionPathsAgree(content: string, constants: Entries)
    ensures SubstituteBySplitJoin(content, constants) == SubstituteByRegex(content, constants)
    decreases |constants|
  {
    if constants != [] {
      SplitJoinIsReplaceAll(content, Placeholder(constants[0].0), constants[0].1);
      SubstitutionPathsAgree(ReplaceAll(content, Placeholder(constants[0].0), constants[0].1), constants[1..]);
    }
  }

  /** Content holding none of the constants' placeholders is left as it is. */
  lemma {:induction false} SubstituteWithoutPlaceholders(content: string, constants: Entries)
    requires forall i :: 0 <= i < |constants| ==> !Occurs(content, Placeholder(constants[i].0))
    ensures SubstituteBySplitJoin(content, constants) == content
    decreases |constants|
  {
    if constants != [] {
      SplitJoinIsReplaceAll(content, Placeholder(constants[0].0), constants[0].1);
      ReplaceAllAbsent(content, Placeholder(constants[0].0), constants[0].1);
      SubstituteWithoutPlaceholders(content, constants[1..]);
    }
  }

  /** A placeholder whose key the constants do not have is passed through
      verbatim. */
  lemma UnmatchedPlaceholderVerbatim(key: string, constants: Entries)
    requires IsWordKey(key)
    requires forall i :: 0 <= i < |constants| ==> IsWordKey(constants[i].0) && constants[i].0 != key
    ensures SubstituteBySplitJoin(Placeholder(key), constants) == Placeholder(key)
  {
    forall i | 0 <= i < |constants|
      ensures !Occurs(Placeholder(key), Placeholder(constants[i].0))
    {
      PlaceholderUnique(constants[i].0, key);
    }
    SubstituteWithoutPlaceholders(Placeholder(key), constants);
  }

  /** Value substitution never touches a CSS marker. */
  lemma MarkerSurvivesValues(name: string, constants: Entries)
    requires IsWordKey(name)
    ensures SubstituteBySplitJoin(Marker(name), constants) == Marker(name)
  {
    forall i | 0 <= i < |constants|
      ensures !Occurs(Marker(name), Placeholder(constants[i].0))
    {
      MarkerHasNoPlaceholder(name, constants[i].0);
    }
    SubstituteWithoutPlaceholders(Marker(name), constants);
  }

  /** A placeholder standing in the content is replaced in place by its value. */
  lemma PlaceholderReplaced(a: string, key: string, value: string, b: string)
    requires LeftmostAt(a + Placeholder(key), Placeholder(key), |a|)
    requires !Occurs(b, Placeholder(key))
    ensures SubstituteBySplitJoin(a + Placeholder(key) + b, [(key, value)]) == a + value + b
  {
    var content := a + Placeholder(key) + b;
    SplitJoinIsReplaceAll(content, Placeholder(key), value);
    ReplaceAllAt(a, Placeholder(key), value, b);
    ReplaceAllAbsent(b, Placeholder(key), value);
    assert [(key, value)][1..] == [];
  }

  // ---------------------------------------------------------------------
  // What the regular expression built from a key really matches
  // ---------------------------------------------------------------------

  predicate IsDigits(k: string) {
    |k| > 0 && forall i :: 0 <= i < |k| ==> '0' <= k[i] <= '9'
  }

  /** The decimal value of a digit string. */
  function DigitsValue(k: string): nat
    decreases |k|
  {
    if k == [] then 0
    else DigitsValue(k[..|k| - 1]) * 10 + (k[|k| - 1] as int - '0' as int) % 10
  }

  function Repeat(c: char, n: nat): string
    decreases n
  {
    if n == 0 then "" else [c] + Repeat(c, n - 1)
  }

  /** The text matched by `new RegExp("#{" + key + "}", "g")` for a word key:
      after `#`, a braced run of digits is a repetition count, so an
      all-digit key matches a run of `#` characters instead of the
      placeholder, and a key of zeros matches the empty string. */
  function KeyRegexMatch(key: string): string
    requires IsWordKey(key)
  {
    if IsDigits(key) then Repeat('#', DigitsValue(key)) else Placeholder(key)
  }

  /** A global replacement of the empty match: `value` before every
      character and once more at the end. */
  function Interleave(s: string, value: string): (r: string)
    ensures |r| == |s| + (|s| + 1) * |value|
    decreases |s|
  {
    if s == [] then value else value + [s[0]] + Interleave(s[1..], value)
  }

  /** In the interleaving, block `i` (of length `|value| + 1`) is the value
      followed by the i-th character of `s`. */
  lemma {:induction false} InterleaveBlock(s: string, value: string, i: int)
    requires 0 <= i < |s|
    ensures i * (|value| + 1) + |value| < |Interleave(s, value)|
    ensures Interleave(s, value)[i * (|value| + 1) .. i * (|value| + 1) + |value|] == value
    ensures Interleave(s, value)[i * (|value| + 1) + |value|] == s[i]
    decreases i
  {
    var k := |value| + 1;
    var r := Interleave(s, value);
    var rest := Interleave(s[1..], value);
    assert r == value + [s[0]] + rest;
    if i > 0 {
      InterleaveBlock(s[1..], value, i - 1);
      assert i * k == (i - 1) * k + k;
      assert r[i * k .. i * k + |value|] == rest[(i - 1) * k .. (i - 1) * k + |value|];
      assert r[i * k + |value|] == rest[(i - 1) * k + |value|];
    }
  }

  /** The interleaving ends with the value, after the last block. */
  lemma {:induction false} InterleaveEnd(s: string, value: string)
    ensures |s| * (|value| + 1) <= |Interleave(s, value)|
    ensures Interleave(s, value)[|s| * (|value| + 1)..] == value
    decreases |s|
  {
    if s != [] {
      var k := |value| + 1;
      var rest := Interleave(s[1..], value);
      assert Interleave(s, value) == value + [s[0]] + rest;
      InterleaveEnd(s[1..], value);
      assert |s| * k == (|s| - 1) * k + k;
    }
  }

  /** One step of the bulk substitution as the regular expression behaves. */
  function ReplaceKeyAsWritten(content: string, key: string, value: string): string
    requires IsWordKey(key)
  {
    var pattern := KeyRegexMatch(key);
    if pattern == [] then Interleave(content, value) else ReplaceAll(content, pattern, value)
  }

  /** The bulk substitution as written: one regular expression per key, in
      enumeration order. */
  function SubstituteAsWritten(content: string, constants: Entries): string
    requires forall i :: 0 <= i < |constants| ==> IsWordKey(constants[i].0)
    decreases |constants|
  {
    if constants == [] then content
    else SubstituteAsWritten(ReplaceKeyAsWritten(content, constants[0].0, constants[0].1), constants[1..])
  }

  /** When no key is all digits, the regular expressions match their
      placeholders literally and the bulk substitution as written is the
      literal one. */
  lemma {:induction false} AsWrittenAgreesWithoutDigitKeys(content: string, constants: Entries)
    requires forall i :: 0 <= i < |constants| ==> IsWordKey(constants[i].0) && !IsDigits(constants[i].0)
    ensures SubstituteAsWritten(content, constants) == SubstituteByRegex(content, constants)
    decreases |constants|
  {
    if constants != [] {
      AsWrittenAgreesWithoutDigitKeys(ReplaceAll(content, Placeholder(constants[0].0), constants[0].1), constants[1..]);
    }
  }

  /** The key "0": its expression matches the empty string, so the value is
      written between all characters and the placeholder stays. */
  lemma ZeroKeyInterleaves()
    ensures ReplaceKeyAsWritten("#{0}", "0", "x") == "x#x{x0x}x"
  {
  }

  /** The key "1": the regular expression replaces the `#` of "#{1}" and
      leaves "{1}" behind, where the split/join path replaces the whole
      placeholder. */
  lemma DigitKeyMismatch()
    ensures ReplaceKeyAsWritten("#{1}", "1", "x") == "x{1}"
    ensures SubstituteBySplitJoin("#{1}", [("1", "x")]) == "x"
  {
    assert IsDigits("1");
    assert DigitsValue("1") == 1 by {
      assert "1"[..0] == "";
    }
    assert Repeat('#', 1) == "#";
    calc {
      ReplaceAll("#{1}", "#", "x");
      "x" + ReplaceAll("{1}", "#", "x");
      { assert "{1}"[1..] == "1}"; assert "1}"[1..] == "}"; assert "}"[1..] == ""; }
      "x" + "{1}";
    }
    PlaceholderReplaced("", "1", "x", "");
    assert "" + Placeholder("1") + "" == "#{1}";
    assert !Occurs("", Placeholder("1"));
  }

  // ---------------------------------------------------------------------
  // CSS injection
  // ---------------------------------------------------------------------

  /** `cssConfigurations` in enumeration order. A value is None for a falsy
      non-string (undefined, null, false, 0). */
  type CssConfig = seq<(string, Option<string>)>

  /** `css || defaultCSS[name]`, as `String.prototype.replace` turns it into
      text: a missing default becomes "undefined". */
  function CssFill(name: string, css: Option<string>): (r: string)
    ensures r != ""
  {
    if css.Some? && css.value != "" then css.value
    else if DefaultCss(name).Some? then DefaultCss(name).value
    else "undefined"
  }

  /** Every marker of each configured name, in enumeration order, replaced by
      that name's fill. */
  function InjectCss(content: string, config: CssConfig): string
    decreases |config|
  {
    if config == [] then content
    else
      var name := config[0].0;
      InjectCss(ReplaceAll(content, Marker(name), CssFill(name, config[0].1)), config[1..])
  }

  /** A configuration the regular expressions handle literally: word names
      and overrides with no `$` replacement pattern. */
  predicate CssSafe(config: CssConfig) {
    forall i :: 0 <= i < |config| ==>
      IsWordKey(config[i].0) && (config[i].1.Some? ==> NoReplacementPattern(config[i].1.value))
  }

  /** Content holding no marker of a configured name is left as it is. */
  lemma {:induction false} InjectCssWithoutMarkers(content: string, config: CssConfig)
    requires forall i :: 0 <= i < |config| ==> !Occurs(content, Marker(config[i].0))
    ensures InjectCss(content, config) == content
    decreases |config|
  {
    if config != [] {
      ReplaceAllAbsent(content, Marker(config[0].0), CssFill(config[0].0, config[0].1));
      InjectCssWithoutMarkers(content, config[1..]);
    }
  }

  /** A marker whose name the configuration does not have is left untouched. */
  lemma ForeignMarkerUntouched(name: string, config: CssConfig)
    requires forall i :: 0 <= i < |config| ==> IsWordKey(config[i].0)
    requires IsWordKey(name)
    requires forall i :: 0 <= i < |config| ==> config[i].0 != name
    ensures InjectCss(Marker(name), config) == Marker(name)
  {
    OtherMarkersAbsent(name, config);
    InjectCssWithoutMarkers(Marker(name), config);
  }

  lemma OtherMarkersAbsent(name: string, config: CssConfig)
    requires forall i :: 0 <= i < |config| ==> IsWordKey(config[i].0)
    requires IsWordKey(name)
    requires forall i :: 0 <= i < |config| ==> config[i].0 != name
    ensures forall i :: 0 <= i < |config| ==> !Occurs(Marker(name), Marker(config[i].0))
  {
    forall i | 0 <= i < |config|
      ensures !Occurs(Marker(name), Marker(config[i].0))
    {
      MarkerUnique(config[i].0, name);
    }
  }

  /** A configured marker is replaced in place: by a truthy override, else by
      the default for its name, else by the text "undefined". */
  lemma MarkerReplaced(a: string, name: string, css: Option<string>, b: string)
    requires LeftmostAt(a + Marker(name), Marker(name), |a|)
    requires !Occurs(b, Marker(name))
    ensures css.Some? && css.value != "" ==>
              InjectCss(a + Marker(name) + b, [(name, css)]) == a + css.value + b
    ensures !(css.Some? && css.value != "") && DefaultCss(name).Some? ==>
              InjectCss(a + Marker(name) + b, [(name, css)]) == a + DefaultCss(name).value + b
    ensures !(css.Some? && css.value != "") && DefaultCss(name).None? ==>
              InjectCss(a + Marker(name) + b, [(name, css)]) == a + "undefined" + b
    ensures InjectCss(a + Marker(name) + b, [(name, css)]) == a + CssFill(name, css) + b
  {
    var fill := CssFill(name, css);
    ReplaceAllAt(a, Marker(name), fill, b);
    ReplaceAllAbsent(b, Marker(name), fill);
    assert [(name, css)][1..] == [];
  }

  /** Injecting one configuration after another is injecting their
      concatenation. */
  lemma {:induction false} InjectAppend(content: string, c1: CssConfig, c2: CssConfig)
    ensures InjectCss(content, c1 + c2) == InjectCss(InjectCss(content, c1), c2)
    decreases |c1|
  {
    if c1 == [] {
      assert c1 + c2 == c2;
    } else {
      assert (c1 + c2)[1..] == c1[1..] + c2;
      InjectAppend(ReplaceAll(content, Marker(c1[0].0), CssFill(c1[0].0, c1[0].1)), c1[1..], c2);
    }
  }

  /** A configured marker among other configured names: when the names
      before it find no marker of theirs and the names after it find none in
      the result, the marker is replaced in place by its fill. */
  lemma ConfiguredMarkerFilled(a: string, name: string, css: Option<string>, b: string,
                               pre: CssConfig, post: CssConfig)
    requires forall i :: 0 <= i < |pre| ==> !Occurs(a + Marker(name) + b, Marker(pre[i].0))
    requires LeftmostAt(a + Marker(name), Marker(name), |a|)
    requires !Occurs(b, Marker(name))
    requires forall i :: 0 <= i < |post| ==> !Occurs(a + CssFill(name, css) + b, Marker(post[i].0))
    ensures InjectCss(a + Marker(name) + b, pre + [(name, css)] + post) == a + CssFill(name, css) + b
  {
    var content := a + Marker(name) + b;
    InjectAppend(content, pre + [(name, css)], post);
    InjectAppend(content, pre, [(name, css)]);
    InjectCssWithoutMarkers(content, pre);
    MarkerReplaced(a, name, css, b);
    InjectCssWithoutMarkers(a + CssFill(name, css) + b, post);
  }

  /** Substituting one set of constants after another is substituting
      their concatenation. */
  lemma {:induction false} SubstituteAppend(content: string, k1: Entries, k2: Entries)
    ensures SubstituteBySplitJoin(content, k1 + k2) == SubstituteBySplitJoin(SubstituteBySplitJoin(content, k1), k2)
    decreases |k1|
  {
    if k1 == [] {
      assert k1 + k2 == k2;
    } else {
      assert (k1 + k2)[1..] == k1[1..] + k2;
      SubstituteAppend(SplitJoinStep(content, k1[0].0, k1[0].1), k1[1..], k2);
    }
  }

  /** A placeholder among other constants: when the keys before it find no
      placeholder of theirs and the keys after it find none in the result,
      the placeholder is replaced in place by its value. */
  lemma ConfiguredPlaceholderFilled(a: string, key: string, value: string, b: string,
                                    pre: Entries, post: Entries)
    requires forall i :: 0 <= i < |pre| ==> !Occurs(a + Placeholder(key) + b, Placeholder(pre[i].0))
    requires LeftmostAt(a + Placeholder(key), Placeholder(key), |a|)
    requires !Occurs(b, Placeholder(key))
    requires forall i :: 0 <= i < |post| ==> !Occurs(a + value + b, Placeholder(post[i].0))
    ensures SubstituteBySplitJoin(a + Placeholder(key) + b, pre + [(key, value)] + post) == a + value + b
  {
    var content := a + Placeholder(key) + b;
    SubstituteAppend(content, pre + [(key, value)], post);
    SubstituteAppend(content, pre, [(key, value)]);
    SubstituteWithoutPlaceholders(content, pre);
    PlaceholderReplaced(a, key, value, b);
    SubstituteWithoutPlaceholders(a + value + b, post);
  }

  // ---------------------------------------------------------------------
  // The two rendering orders
  // ---------------------------------------------------------------------

  /** Values first, then CSS: a placeholder whose value is a configured
      marker ends up as that marker's fill. */
  lemma ValuesThenCss(name: string, fill: string, key: string)
    requires IsWordKey(name) && fill != ""
    ensures InjectCss(SubstituteBySplitJoin(Placeholder(key), [(key, Marker(name))]), [(name, Some(fill))]) == fill
  {
    var p := Placeholder(key);
    PlaceholderReplaced("", key, Marker(name), "");
    assert "" + p + "" == p && "" + Marker(name) + "" == Marker(name);
    assert !Occurs("", p);
    MarkerReplaced("", name, Some(fill), "");
    assert !Occurs("", Marker(name));
    assert "" + fill + "" == fill;
  }

  /** CSS first, then values: the placeholder holds no marker, so the
      marker its value brings in stays as it is. */
  lemma CssThenValues(name: string, fill: string, key: string)
    requires IsWordKey(key)
    ensures SubstituteByRegex(InjectCss(Placeholder(key), [(name, Some(fill))]), [(key, Marker(name))]) == Marker(name)
  {
    var p := Placeholder(key);
    assert forall k :: 2 <= k < 2 + |key| ==> p[k] == key[k - 2];
    assert forall k :: 0 <= k < |p| ==> p[k] != '/';
    assert Marker(name)[0] == '/';
    assert !Occurs(p, Marker(name));
    InjectCssWithoutMarkers(p, [(name, Some(fill))]);
    PlaceholderReplaced("", key, Marker(name), "");
    assert "" + p + "" == p && "" + Marker(name) + "" == Marker(name);
    assert !Occurs("", p);
    SubstitutionPathsAgree(p, [(key, Marker(name))]);
  }
}

=== FILE: text.dfy ===
/** Literal substring replacement, in the two forms the mailers use:
    `s.split(pat).join(rep)` and `s.replace(re, rep)` with a global regular
    expression that matches `pat` literally. */
module Text {

  ghost predicate OccursAt(s: string, pat: string, i: int) {
    0 <= i && i + |pat| <= |s| && s[i..i + |pat|] == pat
  }

  ghost predicate Occurs(s: string, pat: string) {
    exists i :: OccursAt(s, pat, i)
  }

  /** `pat` occurs at `i` and nowhere in `s` to the left of `i`. */
  ghost predicate LeftmostAt(s: string, pat: string, i: int) {
    OccursAt(s, pat, i) && forall j :: 0 <= j < i ==> !OccursAt(s, pat, j)
  }

  /** A global regular-expression replacement of a literal, non-empty
      pattern: scan left to right, replace each match and resume after it. */
  function ReplaceAll(s: string, pat: string, rep: string): string
    requires |pat| > 0
    decreases |s|
  {
    if |s| < |pat| then s
    else if s[..|pat|] == pat then rep + ReplaceAll(s[|pat|..], pat, rep)
    else [s[0]] + ReplaceAll(s[1..], pat, rep)
  }

  /** `s.split(sep)` for a non-empty string separator. */
  function Split(s: string, sep: string): (parts: seq<string>)
    requires |sep| > 0
    ensures |parts| > 0
    ensures parts[0] <= s
    ensures |parts| > 1 ==> parts[0] + sep <= s
    decreases |s|
  {
    if |s| < |sep| then [s]
    else if s[..|sep|] == sep then [""] + Split(s[|sep|..], sep)
    else
      var rest := Split(s[1..], sep);
      [[s[0]] + rest[0]] + rest[1..]
  }

  /** `parts.join(sep)` */
  function Join(parts: seq<string>, sep: string): string
    decreases |parts|
  {
    if parts == [] then ""
    else if |parts| == 1 then parts[0]
    else parts[0] + sep + Join(parts[1..], sep)
  }

  lemma JoinConsChar(c: char, parts: seq<string>, sep: string)
    requires |parts| > 0
    ensures Join([[c] + parts[0]] + parts[1..], sep) == [c] + Join(parts, sep)
  {
    var q := [[c] + parts[0]] + parts[1..];
    assert q[1..] == parts[1..];
  }

  /** Splitting on a pattern and joining with a replacement is the same as
      replacing every match of the pattern, left to right. */
  lemma {:induction false} SplitJoinIsReplaceAll(s: string, pat: string, rep: string)
    requires |pat| > 0
    ensures Join(Split(s, pat), rep) == ReplaceAll(s, pat, rep)
    decreases |s|
  {
    if |s| < |pat| {
    } else if s[..|pat|] == pat {
      SplitJoinIsReplaceAll(s[|pat|..], pat, rep);
      var rest := Split(s[|pat|..], pat);
      assert Split(s, pat) == [""] + rest;
      assert ([""] + rest)[1..] == rest;
      assert Join([""] + rest, rep) == "" + rep + Join(rest, rep);
      assert ReplaceAll(s, pat, rep) == rep + ReplaceAll(s[|pat|..], pat, rep);
    } else {
      SplitJoinIsReplaceAll(s[1..], pat, rep);
      var rest := Split(s[1..], pat);
      assert Split(s, pat) == [[s[0]] + rest[0]] + rest[1..];
      JoinConsChar(s[0], rest, rep);
      assert ReplaceAll(s, pat, rep) == [s[0]] + ReplaceAll(s[1..], pat, rep);
    }
  }

  /** Replacing a pattern by itself changes nothing. */
  lemma {:induction false} ReplaceAllSelf(s: string, pat: string)
    requires |pat| > 0
    ensures ReplaceAll(s, pat, pat) == s
    decreases |s|
  {
    if |s| < |pat| {
    } else if s[..|pat|] == pat {
      ReplaceAllSelf(s[|pat|..], pat);
      assert s == s[..|pat|] + s[|pat|..];
    } else {
      ReplaceAllSelf(s[1..], pat);
      assert s == [s[0]] + s[1..];
    }
  }

  /** Split and join with the same separator are inverse. */
  lemma {:induction false} SplitJoinRoundTrip(s: string, sep: string)
    requires |sep| > 0
    ensures Join(Split(s, sep), sep) == s
  {
    SplitJoinIsReplaceAll(s, sep, sep);
    ReplaceAllSelf(s, sep);
  }

  /** A match in the tail of a string is a match in the string, one place on. */
  lemma OccursInTail(s: string, pat: string, j: int)
    requires |s| > 0
    requires OccursAt(s[1..], pat, j)
    ensures OccursAt(s, pat, j + 1)
  {
    assert s[1..][j..j + |pat|] == s[j + 1..j + 1 + |pat|];
  }

  /** A match past the head of a string is a match in its tail. */
  lemma OccursPastHead(s: string, pat: string, j: int)
    requires j > 0
    requires OccursAt(s, pat, j)
    ensures OccursAt(s[1..], pat, j - 1)
  {
    assert s[1..][j - 1..j - 1 + |pat|] == s[j..j + |pat|];
  }

  /** A match at the head of a prefix is a match at the head of the string. */
  lemma OccursAtHeadOfPrefix(p: string, s: string, pat: string)
    requires p <= s
    requires OccursAt(p, pat, 0)
    ensures OccursAt(s, pat, 0)
  {
    assert s[..|pat|] == p[..|pat|];
  }

  /** Putting a character that starts no match in front of a match-free
      string keeps it match-free. */
  lemma ConsFree(s: string, p: string, pat: string)
    requires |pat| > 0 && |p| > 0 && p <= s
    requires !OccursAt(s, pat, 0)
    requires !Occurs(p[1..], pat)
    ensures !Occurs(p, pat)
  {
    forall j | OccursAt(p, pat, j) ensures false {
      if j == 0 {
        OccursAtHeadOfPrefix(p, s, pat);
      } else {
        OccursPastHead(p, pat, j);
      }
    }
  }

  /** The same for the leftmost-match property of a piece followed by the
      separator. */
  lemma ConsLeftmost(s: string, p: string, pat: string)
    requires |pat| > 0 && |p| > 0 && p + pat <= s
    requires !OccursAt(s, pat, 0)
    requires LeftmostAt(p[1..] + pat, pat, |p| - 1)
    ensures LeftmostAt(p + pat, pat, |p|)
  {
    assert (p + pat)[1..] == p[1..] + pat;
    forall j | 0 <= j < |p| ensures !OccursAt(p + pat, pat, j) {
      if j == 0 {
        if OccursAt(p + pat, pat, 0) {
          OccursAtHeadOfPrefix(p + pat, s, pat);
        }
      } else if OccursAt(p + pat, pat, j) {
        OccursPastHead(p + pat, pat, j);
      }
    }
    assert (p + pat)[|p|..|p| + |pat|] == pat;
  }

  /** No piece of a split contains the separator, and every separator the
      split consumed was the leftmost one after the piece before it: the
      split is the left-to-right, non-overlapping one. */
  lemma {:induction false} SplitPieces(s: string, sep: string)
    requires |sep| > 0
    ensures forall i :: 0 <= i < |Split(s, sep)| ==> !Occurs(Split(s, sep)[i], sep)
    ensures forall i :: 0 <= i < |Split(s, sep)| - 1 ==>
                          LeftmostAt(Split(s, sep)[i] + sep, sep, |Split(s, sep)[i]|)
    decreases |s|
  {
    var parts := Split(s, sep);
    if |s| < |sep| {
      assert parts == [s];
      assert !Occurs(s, sep);
    } else if s[..|sep|] == sep {
      var rest := Split(s[|sep|..], sep);
      SplitPieces(s[|sep|..], sep);
      assert parts == [""] + rest;
      assert !Occurs("", sep);
      assert OccursAt("" + sep, sep, 0);
      forall i | 1 <= i < |parts|
        ensures !Occurs(parts[i], sep)
        ensures i < |parts| - 1 ==> LeftmostAt(parts[i] + sep, sep, |parts[i]|)
      {
        assert parts[i] == rest[i - 1];
      }
    } else {
      var rest := Split(s[1..], sep);
      SplitPieces(s[1..], sep);
      var p := [s[0]] + rest[0];
      assert parts == [p] + rest[1..];
      assert p[1..] == rest[0];
      assert p <= s;
      ConsFree(s, p, sep);
      if |parts| > 1 {
        assert p + sep <= s;
        ConsLeftmost(s, p, sep);
      }
      forall i | 1 <= i < |parts|
        ensures !Occurs(parts[i], sep)
        ensures i < |parts| - 1 ==> LeftmostAt(parts[i] + sep, sep, |parts[i]|)
      {
        assert parts[i] == rest[i];
      }
    }
  }

  /** A string in which the pattern does not occur is left as it is. */
  lemma {:induction false} ReplaceAllAbsent(s: string, pat: string, rep: string)
    requires |pat| > 0
    requires !Occurs(s, pat)
    ensures ReplaceAll(s, pat, rep) == s
    decreases |s|
  {
    if |s| >= |pat| {
      assert !OccursAt(s, pat, 0);
      assert !Occurs(s[1..], pat) by {
        forall j | OccursAt(s[1..], pat, j) ensures false {
          OccursInTail(s, pat, j);
        }
      }
      ReplaceAllAbsent(s[1..], pat, rep);
      assert s == [s[0]] + s[1..];
    }
  }

  /** Dropping the first character of a non-empty left context keeps the
      match leftmost, and the content does not start with the pattern. */
  lemma LeftmostTail(a: string, pat: string, b: string)
    requires |pat| > 0 && |a| > 0
    requires LeftmostAt(a + pat, pat, |a|)
    ensures LeftmostAt(a[1..] + pat, pat, |a| - 1)
    ensures (a + pat + b)[..|pat|] != pat
  {
    assert !OccursAt(a + pat, pat, 0);
    assert (a + pat + b)[..|pat|] == (a + pat)[..|pat|];
    assert (a + pat)[1..] == a[1..] + pat;
    forall j | 0 <= j < |a[1..]| ensures !OccursAt(a[1..] + pat, pat, j) {
      if OccursAt(a[1..] + pat, pat, j) {
        OccursInTail(a + pat, pat, j);
      }
    }
    assert (a[1..] + pat)[|a[1..]|..] == pat;
  }

  /** A match whose left context holds no earlier (possibly overlapping)
      match is replaced in place. */
  lemma {:induction false} ReplaceAllAt(a: string, pat: string, rep: string, b: string)
    requires |pat| > 0
    requires LeftmostAt(a + pat, pat, |a|)
    ensures ReplaceAll(a + pat + b, pat, rep) == a + rep + ReplaceAll(b, pat, rep)
    decreases |a|
  {
    var s := a + pat + b;
    if a == [] {
      assert s == pat + b;
      assert s[..|pat|] == pat;
      assert s[|pat|..] == b;
    } else {
      LeftmostTail(a, pat, b);
      assert s[1..] == a[1..] + pat + b;
      ReplaceAllAt(a[1..], pat, rep, b);
      assert ReplaceAll(s, pat, rep) == [s[0]] + ReplaceAll(s[1..], pat, rep);
      assert a == [a[0]] + a[1..];
    }
  }
}
